=== FILE: README.md ===
# LTI usage pagination, modelled in Dafny

The Moodle plugin local_ltiusage lists every LTI activity of a site, grouped by
LTI tool type. Within a group, rows are sorted by (course name, activity name).
Large groups are shown a page of 25 rows at a time. Three pieces of code do the
paging, and this project models all three:

- **The web service** `local_ltiusage_get_pagination`
  (`get_pagination::execute`), module `PaginationService`. It fetches the
  records of one tool type, sorts them in place with `usort`, and cuts out one
  page with `array_slice`. It then derives the pager fields (`total`,
  `totalpages`, `currentpage`, `has_prev`, `has_next`, `prev`, `next`) and
  formats one row per record. Delete links appear only for a site admin.
- **The full page** `index.php`, module `UsageIndex`. It puts each scanned
  activity into the bucket of its `typeid` (0 when there is none). It then
  sorts each bucket and builds the group's view. A group of at most 25 rows is
  shown whole. A larger one shows the requested page, with nullable `prev` and
  `next` and an AJAX base URL.
- **The client script** `amd/src/pagination.js`, modules `HrefCodec` and
  `PagerClient`.
  - A click on a pager link reads `(typeId, pageNum)` from the first
    `page_(\d+)=(\d+)` in the link's href.
  - It dims the table and asks the service for that page of 25 rows.
  - From the reply it rebuilds the table body and redraws the pager:
    Previous, "Page X of Y", then Next. Each link is the clicked href with its
    page parameter replaced.

Shared pieces are in their own modules:

- `Text`: decimal digits as JavaScript's `parseInt` reads them and as
  JavaScript writes numbers into strings.
- `Collation`: PHP's `<=>` on `[course, name]`, as lexicographic character
  order.
- `Sorting`: `usort`. PHP 8's `usort` is stable. It is specified by a stable
  insertion sort `SortBy`, and the in-place array sort is proved equal to it.
- `Paging`: `array_slice` including negative offsets, and `ceil(total / perpage)`.
- `Usage`: the row shared by the page and the service.
- `Wrappers`: `Option`.

Collaborators are parameters, as follows:

- The database query and the course scan are input sequences of records.
- The tool-type lookup is a map.
- The delete permission (`is_siteadmin`) is a boolean.
- `moodle_url` (with `sesskey`) is a pair of functions from a course-module id
  to a URL.
- `format_string` is a function on strings.
- The request's `page_<typeid>` parameters are a map.

In the client, a group's table is a class with three fields: the rows of its
`tbody` as HTML strings, its pager div's content, and its opacity. Its reply
callback `Done` follows the script as written. `DoneIntended` is the same
callback with the delete-cell condition corrected, as described under
"## Findings".

## Model

| member | source | states |
|---|---|---|
| PaginationService.Execute | classes/external/get_pagination.php:62-153 | sorting the records in place, slicing the page and formatting its rows in a loop yields exactly the reply `Response` describes |
| PaginationService.Response | classes/external/get_pagination.php:107-152 | typeid, page, perpage and candelete are echoed. `total` is the number of fetched records, whatever the page. `(totalpages-1)*perpage < total <= totalpages*perpage`, and `totalpages = 0` iff there are no records. `currentpage = page+1`. `has_prev` iff `page > 0`. `has_next` iff `(page+1)*perpage < total`. `prev = page-1` and `next = page+1` unconditionally. `pageurl` is the index page. The typename is the type's name when `typeid > 0` and a type record exists, else "Custom/Manual LTI". The rows are `PageRows` |
| PaginationService.PageRows | classes/external/get_pagination.php:93-132 | at most perpage rows, in ascending (course, activity) order. For `page >= 0` there are exactly `max(0, min(perpage, total - page*perpage))` rows. Row k is the formatted sorted record `page*perpage + k`. A page starting at or past the end has no rows |
| PaginationService.FormatRows | classes/external/get_pagination.php:121-135 | one row per record, in order: row k is record k formatted. Every row's `show_delete` equals candelete, and without candelete every `deletelink` is empty |
| PaginationService.FormatRow | classes/external/get_pagination.php:122-134 | a row sorts as its record does (same course and activity), keeps its cmid and visibility and links to the activity. `show_delete` is the caller's permission, and the delete link is the delete action's URL with it and empty without |
| PaginationService.TypeName | classes/external/get_pagination.php:97-104 | a positive typeid with a type record gets that type's name; any other typeid gets "Custom/Manual LTI" |
| PaginationService.ReplyRowsFollowPermission | classes/external/get_pagination.php:124-132 | every row of a reply carries the caller's delete permission, and has no delete link without it |
| PaginationService.Sorted | classes/external/get_pagination.php:93-95 | the sorted records are a permutation of the fetched ones, in ascending (course name, activity name) order |
| PaginationService.RecordOrderIsTotalPreorder | classes/external/get_pagination.php:93-95 | the comparator on (coursename, activityname) is total and transitive |
| PaginationService.HasNextIffNextPageNonEmpty | classes/external/get_pagination.php:108-115 | for every page from -1 up, `has_next` holds exactly when the reply for the following page has rows |
| PaginationService.AllPagesListEverything | classes/external/get_pagination.php:107-135 | the rows of pages 0 .. totalpages-1, concatenated, are every sorted record formatted once, in order |
| Paging.PageAsSlice | classes/external/get_pagination.php:108-109 | page m is the part of the list between `m*perpage` and `(m+1)*perpage`, cut to its end |
| PaginationService.FlattenFormat | classes/external/get_pagination.php:121-135 | formatting page by page and concatenating equals formatting the concatenation |
| PaginationService.FormatRowsAppend | classes/external/get_pagination.php:121-135 | appending one formatted record extends the rows by that one row |
| PaginationService.PageLength | classes/external/get_pagination.php:108-109 | a page from 0 up holds what is left from `page*perpage` on, at most perpage rows |
| PaginationService.FormattedPage | classes/external/get_pagination.php:108-135 | row k of a page from 0 up is sorted record `page*perpage + k`, formatted |
| PaginationService.PageRowsBeforeStart | classes/external/get_pagination.php:108-135 | a negative page counts back from the end of the sorted records: `min(perpage, total - start)` rows from `start = max(0, total + page*perpage)`, row k being sorted record `start + k`, formatted |
| PaginationService.FormattedSliceAt | classes/external/get_pagination.php:109-135 | row k of the formatted slice at offset o is record `o + k`, formatted |
| PaginationService.SliceIsSorted | classes/external/get_pagination.php:109 | a slice of a sorted list is sorted |
| Paging.CeilDiv | classes/external/get_pagination.php:112 | `(pages-1)*perpage < total <= pages*perpage`, and `pages = 0` iff `total = 0` |
| Paging.CeilDivUnique | classes/external/get_pagination.php:112 | any count meeting those bounds is `ceil(total/perpage)` |
| Paging.NextPageStarts | classes/external/get_pagination.php:112-115 | a page index is below `ceil(total/perpage)` exactly when that page starts before the end of the list; the same test gives index.php's `next` (lines 122-125) |
| Paging.ArraySlice | classes/external/get_pagination.php:109 | at most `length` elements. An offset at or past the end gives none. From a non-negative offset, `min(length, n - offset)` elements, element k being `s[offset + k]`. A negative offset counts back from the end, clamped at the front: `min(length, n - max(0, n + offset))` elements, element k being `s[max(0, n + offset) + k]` |
| Paging.FirstPagesCover | classes/external/get_pagination.php:107-112 | the first n pages, concatenated, are the first `min(total, n*perpage)` elements |
| Paging.PagesReassemble | classes/external/get_pagination.php:107-112 | the `ceil(total/perpage)` pages, concatenated, are the whole list |
| Paging.PageSize | classes/external/get_pagination.php:108-112 | every page before the last is full; the last holds the remaining `total - p*perpage > 0` elements |
| Sorting.SortInPlace | classes/external/get_pagination.php:93-95 | the in-place sort leaves the array equal to the stable sort `SortBy` of its old contents |
| Sorting.InsertInPlace | classes/external/get_pagination.php:93-95 | one insertion step puts `a[i]` into the sorted prefix after its last non-greater element, and leaves the rest unchanged |
| Sorting.SortByPermutes | classes/external/get_pagination.php:93-95 | the sort only reorders: same length, same multiset |
| Sorting.SortByIsSorted | classes/external/get_pagination.php:93-95 | with a total preorder, the result is in ascending order |
| Sorting.InsertLastPermutes | classes/external/get_pagination.php:93-95 | one insertion adds exactly the inserted element |
| Sorting.InsertLastSorted | classes/external/get_pagination.php:93-95 | inserting into a sorted list keeps it sorted |
| Sorting.InsertLastAt | classes/external/get_pagination.php:93-95 | the insertion point is after the last element not greater than x |
| Sorting.SortByPrefixStep | classes/external/get_pagination.php:93-95 | sorting one more element inserts it into the sorted prefix |
| Sorting.ShiftedPrefix | classes/external/get_pagination.php:93-95 | what the shifting loop leaves is the prefix with x put in at j |
| Collation.StrLeqTotal | classes/external/get_pagination.php:94 | any two names are comparable |
| Collation.StrLeqAntisymmetric | classes/external/get_pagination.php:94 | names comparing both ways are equal |
| Collation.StrLeqTransitive | classes/external/get_pagination.php:94 | the name order is transitive |
| Collation.KeyLeqTotal | classes/external/get_pagination.php:94 | any two (course, activity) keys are comparable |
| Collation.KeyLeqTransitive | classes/external/get_pagination.php:94 | the key order is transitive |
| Usage.RowOrderIsTotalPreorder | index.php:103-105 | the row comparator on (course, name) is total and transitive |
| UsageIndex.GroupByType | index.php:79-98 | the grouping loop yields distinct keys in order of first appearance, exactly the keys of the map. Under each key are the formatted rows of the records of that type, in scan order |
| UsageIndex.FormatRow | index.php:87-96 | a row sorts by the formatted course and activity names (an activity without a name is formatted as empty), keeps cmid and visibility and links to the activity. `show_delete` is `can_delete`, and the delete link is the delete action's URL with it and empty without |
| UsageIndex.TypeOrder | index.php:81-85 | at most one key per scanned record, and the first key is the first record's type |
| UsageIndex.GroupRows | index.php:81-97 | a group has at most as many rows as the scan, and each of its rows carries `show_delete = can_delete`, with an empty delete link without permission |
| UsageIndex.TypeOrderMembers | index.php:81-85 | a typeid is a key exactly when some scanned record has it (0 for none) |
| UsageIndex.TypeOrderDistinct | index.php:83-85 | no key is listed twice |
| UsageIndex.AbsentTypeHasNoRows | index.php:81-98 | a type no record has gets no rows |
| UsageIndex.SumSizesAppendRecord | index.php:81-98 | one more record adds one row to the group of its type only |
| UsageIndex.GroupSizesAddUp | index.php:81-98 | every scanned record is in exactly one group: the group sizes add up to the number of records |
| UsageIndex.SortRows | index.php:103-105 | sorting a group's rows in place gives the stable sort of them |
| UsageIndex.GroupView | index.php:107-156 | `count = total` = group size, and perpage is 25. `paginated` iff more than 25 rows. If not paginated: all rows, `totalpages = 1`, `currentpage = 1`, prev and next null, `lastpage = 0`, empty pageurl. If paginated: the slice at `page*25` of 25 rows, `totalpages = ceil(total/25) >= 2`, `lastpage = totalpages-1`, `currentpage = page+1`. `prev` is `page-1` iff `page > 0`, else null. `next` is `page+1` iff that page has rows, else null. pageurl is the AJAX base URL |
| UsageIndex.TypeName | index.php:107-113 | a positive typeid with a type record gets that type's formatted name; any other typeid gets "Custom/Manual LTI" |
| UsageIndex.PageParam | index.php:117 | the requested page is the `page_<typeid>` parameter when present, and 0 otherwise |
| UsageIndex.AjaxUrl | index.php:127-128 | the page URL, then '&' if it has a '?' and '?' otherwise, then "ajax=1&" |
| UsageIndex.ViewGroup | index.php:102-156 | one pass of the sort-and-paginate loop yields the `GroupView` of the sorted rows, with the group's type name and requested page |
| UsageIndex.BuildTypeGroups | index.php:100-157 | one view per key of the grouping, in key order: the i-th group is the view of the i-th key's rows |
| UsageIndex.SumCountsIsSumSizes | index.php:116-143 | the sum of the `count`s is the sum of the group sizes |
| UsageIndex.EveryTypeHasAGroup | index.php:79-157 | every scanned record's type has a group |
| UsageIndex.CountsAddUp | index.php:116-143 | the group counts add up to the number of scanned records |
| UsageIndex.ViewRowsSorted | index.php:103-120 | a group shows its rows in (course, name) order, on every page |
| UsageIndex.PermutationFollowsPermission | index.php:103-105 | sorting a group keeps every row's delete flag and link, as it only reorders the rows |
| UsageIndex.ViewFollowsPermission | index.php:118-138 | a group's view shows only rows it was given, so they keep their delete flags and links |
| UsageIndex.ViewFacts | index.php:79-157 | across the groups of a scan: distinct typeids, every record's type present, counts summing to the scan, rows sorted, and every shown row carrying `show_delete = can_delete` with no delete link without permission |
| UsageIndex.BuildPage | index.php:79-157 | the page body is one view per type, in order of first appearance, with those five properties: in particular, without `can_delete` no row of any group shows a delete control or carries a delete link |
| HrefCodec.ParseHrefNone | amd/src/pagination.js:35-37 | an href gives no (typeId, pageNum) exactly when `page_<digits>=<digits>` occurs nowhere in it |
| HrefCodec.ParseHrefSome | amd/src/pagination.js:35-37 | otherwise the parse reads the leftmost occurrence. Its page digits are taken whole, and the capture groups are its two digit runs |
| HrefCodec.ParseHref | amd/src/pagination.js:35-37 | no result exactly when the pattern has no leftmost match. Otherwise the result is the two numbers `parseInt` reads from that match's type and page digit runs |
| HrefCodec.NoOccurrenceBefore | amd/src/pagination.js:35 | no occurrence of the pattern starts before the leftmost match |
| HrefCodec.GroupsAreDigits | amd/src/pagination.js:35-37 | both capture groups are non-empty digit runs, so `parseInt` reads all of each |
| HrefCodec.FirstMatch | amd/src/pagination.js:35 | a match found from `from` lies inside the string, after `from`, with non-empty digit runs |
| HrefCodec.FirstMatchIsLeftmost | amd/src/pagination.js:35 | the match found is a match, and none starts before it. When none is found there is none |
| HrefCodec.FirstMatchAt | amd/src/pagination.js:35 | the match is the one at the first position that has one |
| HrefCodec.MatchAtSound | amd/src/pagination.js:35 | what is matched at i is accepted by the pattern, and the page digits stop at a non-digit or at the end |
| HrefCodec.MatchAtComplete | amd/src/pagination.js:35 | every occurrence of the pattern at i is found, ending at or after it |
| HrefCodec.MatchAt | amd/src/pagination.js:35 | positions only: a match at i starts at i, its '=' comes after at least one character past "page_", and its end leaves at least one character after '=' and stays within the href; what is matched is stated by `MatchAtSound` and `MatchAtComplete` |
| HrefCodec.MatchAfterPrefix | amd/src/pagination.js:35 | positions only: a match found after "page_" at i starts at i, with '=' past the prefix and at least one character after it, within the href |
| HrefCodec.MatchAfterEq | amd/src/pagination.js:35 | positions only: a match found after the '=' at eq keeps start i and that eq, and ends at least two characters past eq, within the href |
| HrefCodec.DigitRun | amd/src/pagination.js:35 | the greedy digit run stays inside the string |
| HrefCodec.DigitRunIsRun | amd/src/pagination.js:35 | the run is all digits and ends at a non-digit or at the end |
| HrefCodec.RunIsLongest | amd/src/pagination.js:35 | any digit run ended by a non-digit is the greedy run |
| HrefCodec.Rewrite | amd/src/pagination.js:79 | an href without a match is left as it is. Otherwise the text before the first match and the text after it are unchanged, and the match becomes `page_<t>=<q>` |
| HrefCodec.RewriteRoundTrip | amd/src/pagination.js:79-85 | reading a rewritten href gives back exactly the (t, q) written into it |
| HrefCodec.GroupsOfReplaced | amd/src/pagination.js:79-85 | in the rewritten href the capture groups are the written digit strings |
| HrefCodec.FirstOfReplaced | amd/src/pagination.js:79-85 | the leftmost match of the rewritten href is the written segment |
| HrefCodec.NoMatchBeforeReplaced | amd/src/pagination.js:79-85 | the rewrite creates no match before the segment |
| HrefCodec.MatchOfReplaced | amd/src/pagination.js:79-85 | the written segment is matched whole, as the text after it does not start with a digit |
| Text.NatToString | amd/src/pagination.js:79 | a number's text is non-empty, all digits, and has no leading zero |
| Text.IntToString | amd/src/pagination.js:64 | an integer's text is non-empty and starts with '-' exactly when the integer is negative, followed by its magnitude; a non-negative integer's text is its decimal, `NatToString` |
| Text.DecimalRoundTrip | amd/src/pagination.js:36-37 | `parseInt` of a number's text is the number |
| Text.DecimalValue | amd/src/pagination.js:36-37 | `parseInt` of a digit string is 0 exactly when every digit is '0' |
| PagerClient.PagerShape | amd/src/pagination.js:72-86 | Previous comes first iff `pageNum > 0` and leads to `pageNum-1`. Next comes last iff `pageNum < ceil(total/25) - 1`, that is iff the following page has rows, and leads to `pageNum+1`. The indicator appears once, between them, reading "Page pageNum+1 of ceil(total/25)" |
| PagerClient.Pager | amd/src/pagination.js:75-86 | one to three parts. A Previous link leads to the page before pageNum, and a Next link to the page after it, which exists: it is below `ceil(total/25)` |
| PagerClient.IndicatorText | amd/src/pagination.js:82 | "Page ", then digits that `parseInt` reads as pageNum+1, then " of ", then digits it reads as the page count |
| PagerClient.ClickRequest | amd/src/pagination.js:35-49 | a click sends a request exactly when its href parses, and then asks for the parsed type and page, 25 rows |
| PagerClient.PagerLinksNavigate | amd/src/pagination.js:79-85 | clicking any pager link drawn from a page link requests that link's page of the same type, 25 rows |
| PagerClient.PagerAgreesWithService | amd/src/pagination.js:75-86 | against the service's reply for the same type and page: Previous iff `has_prev`, Next iff `has_next`, and the indicator reads `currentpage` of `totalpages` |
| PagerClient.DeleteCellIsLastCell | amd/src/pagination.js:57-67 | the delete cell is the only difference it makes to a row, and it goes last, just before `</tr>` |
| PagerClient.RowIsTagged | amd/src/pagination.js:61-67 | a row opens with `<tr>` and closes with `</tr>` |
| PagerClient.RowOpensWithCells | amd/src/pagination.js:61-65 | after `<tr>`, a row holds the course cell, the activity name cell and the visibility cell, in that order, and then the Open cell |
| PagerClient.CellHoldsText | amd/src/pagination.js:62-64 | a text cell is `<td>`, the text unchanged, then `</td>` |
| PagerClient.RowEndsWithLastCell | amd/src/pagination.js:57-67 | a row's last cell, just before `</tr>`, is the delete cell when shown and the Open cell otherwise |
| PagerClient.PartHtml | amd/src/pagination.js:78-86 | the indicator part is its text. A Previous link is exactly `<a href="`, then the href rewritten for its page, then `" class="btn btn-secondary">&lsaquo; Previous</a> `. A Next link is exactly ` <a href="`, the rewritten href, then `" class="btn btn-secondary">Next &rsaquo;</a>` |
| PagerClient.PagerHtmlEnds | amd/src/pagination.js:76-86 | the pager HTML opens with its first part's HTML and closes with its last part's HTML |
| PagerClient.DeleteCellHoldsLink | amd/src/pagination.js:57-59 | the delete cell is one `<td>` cell, and its link is the row's delete link, unchanged |
| PagerClient.FieldsAreTheDeclaredKeys | classes/external/get_pagination.php:137-152 | the reply object has a field under exactly its fourteen declared keys |
| PagerClient.DeleteCellAsWritten | amd/src/pagination.js:57 | as written, the delete-cell condition reads the undefined `can_delete` field, so it is false for every reply |
| PagerClient.ShowDeleteCell | amd/src/pagination.js:57 | read under its declared name, the flag is exactly the reply's `candelete` |
| PagerClient.TableGroup.constructor | amd/src/pagination.js:32-34 | a table with its current rows and pager, fully opaque |
| PagerClient.TableGroup.Click | amd/src/pagination.js:32-49 | the request is the href's (typeId, pageNum, 25). A href without a page parameter changes nothing. Otherwise only the opacity changes, to 0.5 |
| PagerClient.TableGroup.Done | amd/src/pagination.js:50-92 | the callback as written: the body is replaced by exactly one row per reply row, in order, none with a delete cell, because the condition reads `can_delete`. The pager div, if the group has one, holds the pager for (pageNum, total). Opacity is back to 1 |
| PagerClient.TableGroup.DoneIntended | amd/src/pagination.js:50-92 | the callback with the corrected condition: as `Done`, except that every row has a delete cell exactly when the reply's `candelete` is set |
| PagerClient.TableGroup.Redraw | amd/src/pagination.js:52-92 | for a given delete-cell choice: one row per reply row, in order, the pager redrawn when the group has one, opacity 1 |
| PagerClient.DrawRows | amd/src/pagination.js:56-69 | the rebuilt body has one row per reply row, in reply order, each drawn by the row drawer, and no others |
| PagerClient.DrawPager | amd/src/pagination.js:72-89 | the accumulated pager string is the HTML of `Pager(pageNum, total)`'s parts, in order |

## Left out

- The database query, the course scan, `get_record('lti_types')`, `require_login`, `require_capability` and `is_siteadmin` are inputs (records, a type map, a boolean), not modelled.
- `moodle_url`, `sesskey`, `format_string`, `get_string`, the Mustache template and the page header and footer are uninterpreted: URLs are functions of the course-module id, and formatting is a function on strings.
- PHP's `<=>` compares numeric-looking strings as numbers. The model orders names by character code only.
- The web service's `validate_parameters` and its integer types are not modelled. `perpage` is required to be positive, because the service divides by it with no guard, and a zero `perpage` would fail there.
- A negative `perpage` is left out of the model too. In the source, `array_slice` with a negative length drops that many rows from the end (classes/external/get_pagination.php:109), and `ceil` then gives 0 or fewer pages (line 112). The only caller, the client, always sends 25 (amd/src/pagination.js:48).
- JavaScript numbers are doubles: `parseInt` of a very long digit run loses precision and `Math.ceil(total / 25)` is floating point. The model reads digit runs as unbounded naturals and computes the ceiling exactly.
- HTML escaping is not modelled: the client concatenates row fields and hrefs into HTML as they are, and so does the model.
- jQuery event binding and `stopPropagation`, the asynchronous `ajax.call`, and the `setTimeout` scroll back to the table are left out. The call has no failure handler, so after a failed request the table stays at opacity 0.5; the model has no failure path for the same reason.
- PagerClient.TableGroup.Click: when the href has no page parameter, the source throws a TypeError on `pageMatch[1]`. The model returns no request and leaves the table unchanged, which is the observable effect.
- db/services.php, lang/en/local_ltiusage.php and classes/output/main.php hold registrations and strings only; they are not part of this model.
- A type with no records reports `totalpages = 0`, which is `ceil(0 / perpage)` (`Paging.CeilDiv`, `PaginationService.Response`). The client's pager has only Previous, the indicator and Next: there is no first-page or last-page control.

## Findings

| source | as written | input that shows it | evidently intended | confidence | as-written member | corrected member |
|---|---|---|---|---|---|---|
| amd/src/pagination.js:57 | the client adds a delete cell when `response.can_delete` is truthy, but the reply's field is `candelete` (classes/external/get_pagination.php:144), so the condition reads an undefined field | any reply with `candelete = true`, such as a site admin paging a type with rows: no row gets a delete cell | the delete cell is drawn exactly when the reply's `candelete` is true, as on the full page | high (by reading; not executed) | PagerClient.DeleteCellAsWritten | PagerClient.ShowDeleteCell |

=== FILE: collation.dfy ===
/**
 * The order used to sort activities: PHP's `<=>` on the two-element arrays
 * [course name, activity name], compared element by element, each string
 * compared character by character.
 */
module Collation {

  /** Lexicographic order on strings by character code; a prefix comes first. */
  predicate StrLeq(a: string, b: string) {
    a == [] || (b != [] && (a[0] < b[0] || (a[0] == b[0] && StrLeq(a[1..], b[1..]))))
  }

  lemma {:induction false} StrLeqTotal(a: string, b: string)
    ensures StrLeq(a, b) || StrLeq(b, a)
  {
    if a != [] && b != [] && a[0] == b[0] {
      StrLeqTotal(a[1..], b[1..]);
    }
  }

  lemma {:induction false} StrLeqAntisymmetric(a: string, b: string)
    requires StrLeq(a, b) && StrLeq(b, a)
    ensures a == b
  {
    if a != [] && b != [] {
      StrLeqAntisymmetric(a[1..], b[1..]);
      assert a == [a[0]] + a[1..] && b == [b[0]] + b[1..];
    }
  }

  lemma {:induction false} StrLeqTransitive(a: string, b: string, c: string)
    requires StrLeq(a, b) && StrLeq(b, c)
    ensures StrLeq(a, c)
  {
    if a != [] && b != [] && c != [] && a[0] == b[0] == c[0] {
      StrLeqTransitive(a[1..], b[1..], c[1..]);
    }
  }

  /** The pair a row is sorted on: (course name, activity name). */
  datatype SortKey = SortKey(primary: string, secondary: string)

  /** `[a.primary, a.secondary] <=> [b.primary, b.secondary]` is at most 0. */
  predicate KeyLeq(a: SortKey, b: SortKey) {
    if a.primary == b.primary then StrLeq(a.secondary, b.secondary) else StrLeq(a.primary, b.primary)
  }

  lemma KeyLeqTotal(a: SortKey, b: SortKey)
    ensures KeyLeq(a, b) || KeyLeq(b, a)
  {
    StrLeqTotal(a.primary, b.primary);
    StrLeqTotal(a.secondary, b.secondary);
  }

  lemma KeyLeqTransitive(a: SortKey, b: SortKey, c: SortKey)
    requires KeyLeq(a, b) && KeyLeq(b, c)
    ensures KeyLeq(a, c)
  {
    if a.primary == b.primary == c.primary {
      StrLeqTransitive(a.secondary, b.secondary, c.secondary);
    } else if a.primary == b.primary {
      // a.primary < c.primary follows from b's
    } else if b.primary == c.primary {
    } else {
      StrLeqTransitive(a.primary, b.primary, c.primary);
      if a.primary == c.primary {
        StrLeqAntisymmetric(a.primary, b.primary);
      }
    }
  }
}

=== FILE: href_codec.dfy ===
/**
 * The page parameter a pager link carries: the client reads (typeId, pageNum)
 * from the first "page_<digits>=<digits>" in an href, and points a link at
 * another page by replacing that same text.
 *
 * The regular expression is matched as JavaScript does: the leftmost start
 * position wins, and each digit run is as long as it can be.
 */
module HrefCodec {
  import opened Wrappers
  import opened Text

  const Prefix := "page_"

  /**
   * Where one match of page_(\d+)=(\d+) lies: s[start..start + 5] is "page_",
   * the type digits run up to eq, s[eq] is '=', the page digits run up to end.
   */
  datatype Match = Match(start: nat, eq: nat, end: nat)

  /** s[i..end] is a text the pattern page_\d+=\d+ accepts, with its '=' at eq. */
  ghost predicate Occurs(s: string, i: nat, eq: nat, end: nat) {
    i + |Prefix| < eq && eq + 1 < end <= |s|
    && s[i..i + |Prefix|] == Prefix
    && AllDigits(s[i + |Prefix|..eq])
    && s[eq] == '='
    && AllDigits(s[eq + 1..end])
  }

  /** The length of the longest run of digits starting at i. */
  function DigitRun(s: string, i: nat): (n: nat)
    requires i <= |s|
    ensures i + n <= |s|
    decreases |s| - i
  {
    if i < |s| && IsDigit(s[i]) then 1 + DigitRun(s, i + 1) else 0
  }

  /** DigitRun covers digits only and stops at a non-digit or at the end of s. */
  lemma {:induction false} DigitRunIsRun(s: string, i: nat)
    requires i <= |s|
    ensures var n := DigitRun(s, i);
      AllDigits(s[i..i + n]) && (i + n == |s| || !IsDigit(s[i + n]))
    decreases |s| - i
  {
    var n := DigitRun(s, i);
    if i < |s| && IsDigit(s[i]) {
      DigitRunIsRun(s, i + 1);
      assert s[i..i + n] == [s[i]] + s[i + 1..i + n];
    }
  }

  /** A run of digits w at i, ended by a non-digit (or the end of s), is the longest one. */
  lemma {:induction false} RunIsLongest(s: string, i: nat, w: string)
    requires i + |w| <= |s| && s[i..i + |w|] == w && AllDigits(w)
    requires i + |w| == |s| || !IsDigit(s[i + |w|])
    ensures DigitRun(s, i) == |w|
    decreases |w|
  {
    if |w| > 0 {
      assert s[i] == w[0];
      assert s[i + 1..i + |w|] == w[1..];
      RunIsLongest(s, i + 1, w[1..]);
    }
  }

  /** "page_" starts at i. */
  predicate PrefixAt(s: string, i: nat) {
    i + |Prefix| <= |s| && s[i..i + |Prefix|] == Prefix
  }

  /** The match of the pattern that starts at i, if there is one. */
  function MatchAt(s: string, i: nat): (m: Option<Match>)
    requires i <= |s|
    ensures m.Some? ==> m.value.start == i && i + |Prefix| < m.value.eq && m.value.eq + 1 < m.value.end <= |s|
  {
    if PrefixAt(s, i) then MatchAfterPrefix(s, i) else None
  }

  /** After "page_": the type digits, as many as there are, must be followed by '='. */
  function MatchAfterPrefix(s: string, i: nat): (m: Option<Match>)
    requires PrefixAt(s, i)
    ensures m.Some? ==> m.value.start == i && i + |Prefix| < m.value.eq && m.value.eq + 1 < m.value.end <= |s|
  {
    var eq := i + |Prefix| + DigitRun(s, i + |Prefix|);
    if eq > i + |Prefix| && eq < |s| && s[eq] == '=' then MatchAfterEq(s, i, eq) else None
  }

  /** After '=': at least one page digit, and the run is taken whole. */
  function MatchAfterEq(s: string, i: nat, eq: nat): (m: Option<Match>)
    requires i + |Prefix| < eq < |s|
    ensures m.Some? ==> m.value.start == i && m.value.eq == eq && eq + 1 < m.value.end <= |s|
  {
    var end := eq + 1 + DigitRun(s, eq + 1);
    if end > eq + 1 then Some(Match(i, eq, end)) else None
  }

  /** What MatchAt finds is accepted by the pattern, and its page digits are taken whole. */
  lemma MatchAtSound(s: string, i: nat)
    requires i <= |s|
    requires MatchAt(s, i).Some?
    ensures var m := MatchAt(s, i).value;
      Occurs(s, i, m.eq, m.end) && (m.end == |s| || !IsDigit(s[m.end]))
  {
    DigitRunIsRun(s, i + |Prefix|);
    DigitRunIsRun(s, MatchAt(s, i).value.eq + 1);
  }

  /** Every text the pattern accepts at i is found by MatchAt, which ends at or after it. */
  lemma MatchAtComplete(s: string, i: nat, eq: nat, end: nat)
    requires Occurs(s, i, eq, end)
    ensures MatchAt(s, i).Some?
    ensures MatchAt(s, i).value.eq == eq && MatchAt(s, i).value.end >= end
  {
    var p := i + |Prefix|;
    RunIsLongest(s, p, s[p..eq]);
    DigitRunIsRun(s, eq + 1);
    forall j | eq + 1 <= j < end ensures IsDigit(s[j]) {
      assert s[j] == s[eq + 1..end][j - eq - 1];
    }
  }

  /** The leftmost match at or after from: what String.prototype.match and replace use. */
  function FirstMatch(s: string, from: nat): (m: Option<Match>)
    requires from <= |s|
    ensures m.Some? ==> from <= m.value.start && m.value.start + |Prefix| < m.value.eq && m.value.eq + 1 < m.value.end <= |s|
    decreases |s| - from
  {
    if MatchAt(s, from).Some? then MatchAt(s, from)
    else if from == |s| then None
    else FirstMatch(s, from + 1)
  }

  /** FirstMatch finds a match, and none starts between from and it; when it finds none, there is none. */
  lemma {:induction false} FirstMatchIsLeftmost(s: string, from: nat)
    requires from <= |s|
    ensures var m := FirstMatch(s, from);
      && (m.Some? ==> MatchAt(s, m.value.start) == m)
      && (m.Some? ==> forall i | from <= i < m.value.start :: MatchAt(s, i).None?)
      && (m.None? ==> forall i | from <= i <= |s| :: MatchAt(s, i).None?)
    decreases |s| - from
  {
    if MatchAt(s, from).None? && from < |s| {
      FirstMatchIsLeftmost(s, from + 1);
    }
  }

  /** The leftmost match is the one at the first position that has one. */
  lemma {:induction false} FirstMatchAt(s: string, from: nat, a: nat)
    requires from <= a <= |s|
    requires MatchAt(s, a).Some?
    requires forall i | from <= i < a :: MatchAt(s, i).None?
    ensures FirstMatch(s, from) == MatchAt(s, a)
    decreases a - from
  {
    if from < a {
      FirstMatchAt(s, from + 1, a);
    }
  }

  /** The two capture groups of the first page_(\d+)=(\d+) in s: its type digits and page digits. */
  function Groups(s: string): Option<(string, string)>
  {
    match FirstMatch(s, 0)
    case None => None
    case Some(m) => Some((s[m.start + |Prefix|..m.eq], s[m.eq + 1..m.end]))
  }

  /** Both capture groups are non-empty runs of digits. */
  lemma GroupsAreDigits(s: string)
    requires Groups(s).Some?
    ensures var g := Groups(s).value; |g.0| > 0 && AllDigits(g.0) && |g.1| > 0 && AllDigits(g.1)
  {
    FirstMatchIsLeftmost(s, 0);
    MatchAtSound(s, FirstMatch(s, 0).value.start);
  }

  /**
   * The href parse: parseInt of the two capture groups, or nothing when the
   * href has no page_<digits>=<digits>.
   */
  function ParseHref(url: string): (r: Option<(nat, nat)>)
    ensures r.None? <==> FirstMatch(url, 0).None?
    ensures r.Some? ==> var m := FirstMatch(url, 0).value;
      && AllDigits(url[m.start + |Prefix|..m.eq]) && AllDigits(url[m.eq + 1..m.end])
      && r.value == (DecimalValue(url[m.start + |Prefix|..m.eq]), DecimalValue(url[m.eq + 1..m.end]))
  {
    match Groups(url)
    case None => None
    case Some((ts, qs)) =>
      GroupsAreDigits(url);
      Some((DecimalValue(ts), DecimalValue(qs)))
  }

  /** An href yields nothing exactly when the pattern occurs nowhere in it. */
  lemma ParseHrefNone(url: string)
    ensures ParseHref(url).None? <==> forall i, eq, end | 0 <= i <= |url| :: !Occurs(url, i, eq, end)
  {
    FirstMatchIsLeftmost(url, 0);
    match FirstMatch(url, 0)
    case None =>
      forall i, eq, end | 0 <= i <= |url| ensures !Occurs(url, i, eq, end) {
        if Occurs(url, i, eq, end) {
          MatchAtComplete(url, i, eq, end);
        }
      }
    case Some(m) =>
      MatchAtSound(url, m.start);
  }

  /** No occurrence of the pattern starts before the leftmost match. */
  lemma NoOccurrenceBefore(url: string, m: Match)
    requires FirstMatch(url, 0) == Some(m)
    ensures forall i, eq, end | 0 <= i < m.start :: !Occurs(url, i, eq, end)
  {
    FirstMatchIsLeftmost(url, 0);
    forall i, eq, end | 0 <= i < m.start ensures !Occurs(url, i, eq, end) {
      if Occurs(url, i, eq, end) {
        MatchAtComplete(url, i, eq, end);
      }
    }
  }

  /** The capture groups of the first match m are its two digit runs. */
  lemma GroupsOfFirst(s: string, m: Match)
    requires FirstMatch(s, 0) == Some(m)
    ensures Groups(s) == Some((s[m.start + |Prefix|..m.eq], s[m.eq + 1..m.end]))
  {
  }

  /**
   * Otherwise it reads the leftmost occurrence m, whose page digits are taken
   * whole: the capture groups are m's two digit runs.
   */
  lemma ParseHrefSome(url: string, m: Match)
    requires FirstMatch(url, 0) == Some(m)
    ensures ParseHref(url).Some?
    ensures Occurs(url, m.start, m.eq, m.end) && (m.end == |url| || !IsDigit(url[m.end]))
    ensures forall i, eq, end | 0 <= i < m.start :: !Occurs(url, i, eq, end)
    ensures Groups(url) == Some((url[m.start + |Prefix|..m.eq], url[m.eq + 1..m.end]))
  {
    FirstMatchIsLeftmost(url, 0);
    MatchAtSound(url, m.start);
    NoOccurrenceBefore(url, m);
    GroupsOfFirst(url, m);
  }

  /** The text a rewritten link carries for type digits ts and page digits qs. */
  function SegmentText(ts: string, qs: string): (seg: string)
    ensures |seg| == |Prefix| + |ts| + 1 + |qs|
  {
    Prefix + ts + "=" + qs
  }

  /** The text a rewritten link carries for type t and page q: 'page_' + t + '=' + q. */
  function Segment(t: nat, q: nat): (seg: string)
    ensures |seg| == |Prefix| + |NatToString(t)| + 1 + |NatToString(q)|
  {
    SegmentText(NatToString(t), NatToString(q))
  }

  /** url.replace(/page_\d+=\d+/, 'page_' + t + '=' + q): only the first match is replaced. */
  function Rewrite(url: string, t: nat, q: nat): (r: string)
    ensures FirstMatch(url, 0).None? ==> r == url
    ensures FirstMatch(url, 0).Some? ==>
      var m := FirstMatch(url, 0).value;
      |r| == m.start + |Segment(t, q)| + (|url| - m.end)
      && r[..m.start] == url[..m.start]
      && r[m.start..m.start + |Segment(t, q)|] == Segment(t, q)
      && r[m.start + |Segment(t, q)|..] == url[m.end..]
  {
    match FirstMatch(url, 0)
    case None => url
    case Some(m) =>
      var r := url[..m.start] + Segment(t, q) + url[m.end..];
      assert r[..m.start] == url[..m.start];
      assert r[m.start..m.start + |Segment(t, q)|] == Segment(t, q);
      assert r[m.start + |Segment(t, q)|..] == url[m.end..];
      r
  }

  /** s1 and s2 have the same characters at positions 0 .. k. */
  predicate AgreeUpTo(s1: string, s2: string, k: nat) {
    k < |s1| && k < |s2| && forall j | 0 <= j <= k :: s1[j] == s2[j]
  }

  /** Two strings that agree up to a non-digit at k have the same digit runs before k. */
  lemma {:induction false} DigitRunAgree(s1: string, s2: string, i: nat, k: nat)
    requires i <= k && AgreeUpTo(s1, s2, k)
    requires !IsDigit(s1[k])
    ensures DigitRun(s1, i) == DigitRun(s2, i) && i + DigitRun(s1, i) <= k
    decreases k - i
  {
    if i < k && IsDigit(s1[i]) {
      DigitRunAgree(s1, s2, i + 1, k);
    }
  }

  lemma MatchAfterPrefixAgree(s1: string, s2: string, i: nat, k: nat)
    requires i + |Prefix| <= k && AgreeUpTo(s1, s2, k) && s1[k] == 'p'
    requires PrefixAt(s1, i) && PrefixAt(s2, i)
    ensures MatchAfterPrefix(s1, i) == MatchAfterPrefix(s2, i)
  {
    var p := i + |Prefix|;
    DigitRunAgree(s1, s2, p, k);
    var eq := p + DigitRun(s1, p);
    assert s1[eq] == s2[eq];
    if eq > p && s1[eq] == '=' {
      DigitRunAgree(s1, s2, eq + 1, k);
    }
  }

  /**
   * A match starting before a 'p' at k never reaches past k, so it is the
   * same in two strings that agree up to k.
   */
  lemma MatchAtAgree(s1: string, s2: string, i: nat, k: nat)
    requires i < k && AgreeUpTo(s1, s2, k)
    requires s1[k] == 'p'
    ensures MatchAt(s1, i) == MatchAt(s2, i)
  {
    var p := i + |Prefix|;
    if p <= k {
      assert s1[i..p] == s2[i..p];
      if PrefixAt(s1, i) {
        MatchAfterPrefixAgree(s1, s2, i, k);
      }
    } else {
      assert s2[k] == s1[k];
    }
  }

  /** r holds "page_", ts, '=' and qs from position a on. */
  ghost predicate SegmentAt(r: string, a: nat, ts: string, qs: string) {
    && a + |Prefix| + |ts| + 1 + |qs| <= |r|
    && r[a..a + |Prefix|] == Prefix
    && r[a + |Prefix|..a + |Prefix| + |ts|] == ts
    && r[a + |Prefix| + |ts|] == '='
    && r[a + |Prefix| + |ts| + 1..a + |Prefix| + |ts| + 1 + |qs|] == qs
  }

  /** "page_", a digit run, '=', and a digit run ended by a non-digit (or the end) are matched at a, whole. */
  lemma MatchOfLayout(r: string, a: nat, ts: string, qs: string)
    requires |ts| > 0 && AllDigits(ts) && |qs| > 0 && AllDigits(qs)
    requires SegmentAt(r, a, ts, qs)
    requires var end := a + |Prefix| + |ts| + 1 + |qs|; end == |r| || !IsDigit(r[end])
    ensures MatchAt(r, a) == Some(Match(a, a + |Prefix| + |ts|, a + |Prefix| + |ts| + 1 + |qs|))
  {
    RunIsLongest(r, a + |Prefix|, ts);
    RunIsLongest(r, a + |Prefix| + |ts| + 1, qs);
  }

  /** A segment written into r at a, as text, lays out its parts there. */
  lemma SegmentAtOfText(r: string, a: nat, ts: string, qs: string)
    requires a + |SegmentText(ts, qs)| <= |r|
    requires r[a..a + |SegmentText(ts, qs)|] == SegmentText(ts, qs)
    ensures SegmentAt(r, a, ts, qs)
  {
    var seg := SegmentText(ts, qs);
    var p := |Prefix|;
    assert seg[..p] == Prefix;
    assert seg[p..p + |ts|] == ts;
    assert seg[p + |ts|] == '=';
    assert seg[p + |ts| + 1..] == qs;
    assert r[a..a + p] == seg[..p];
    assert r[a + p..a + p + |ts|] == seg[p..p + |ts|];
    assert r[a + p + |ts|] == seg[p + |ts|];
    assert r[a + p + |ts| + 1..a + |seg|] == seg[p + |ts| + 1..];
  }

  /** The character after a match, if any, is not a digit. */
  lemma MatchEndsRun(s: string, a: nat)
    requires a <= |s| && MatchAt(s, a).Some?
    ensures var e := MatchAt(s, a).value.end; e == |s| || !IsDigit(s[e])
  {
    MatchAtSound(s, a);
  }

  /** A match starts with 'p'. */
  lemma MatchStartsWithP(s: string, a: nat)
    requires a <= |s| && MatchAt(s, a).Some?
    ensures a < |s| && s[a] == 'p'
  {
    assert s[a] == s[a..a + |Prefix|][0];
  }

  /**
   * r is url with its first match m replaced by the segment of digit runs ts
   * and qs, everything before and after the match kept.
   */
  ghost predicate Replaced(url: string, r: string, m: Match, ts: string, qs: string) {
    && FirstMatch(url, 0) == Some(m)
    && |ts| > 0 && AllDigits(ts) && |qs| > 0 && AllDigits(qs)
    && |r| == m.start + |SegmentText(ts, qs)| + (|url| - m.end)
    && r[..m.start] == url[..m.start]
    && r[m.start..m.start + |SegmentText(ts, qs)|] == SegmentText(ts, qs)
    && r[m.start + |SegmentText(ts, qs)|..] == url[m.end..]
  }

  /** The match that was replaced ended a digit run, so the segment's page digits end where url's did. */
  lemma EndOfReplaced(url: string, r: string, m: Match, ts: string, qs: string)
    requires Replaced(url, r, m, ts, qs)
    ensures var e := m.start + |SegmentText(ts, qs)|; e == |r| || !IsDigit(r[e])
  {
    var e := m.start + |SegmentText(ts, qs)|;
    FirstMatchIsLeftmost(url, 0);
    MatchEndsRun(url, m.start);
    if e < |r| {
      assert r[e] == r[e..][0] == url[m.end..][0] == url[m.end];
    }
  }

  /** Replacing url's first match m by a segment of digit runs matches the segment there, whole. */
  lemma MatchOfReplaced(url: string, r: string, m: Match, ts: string, qs: string)
    requires Replaced(url, r, m, ts, qs)
    ensures SegmentAt(r, m.start, ts, qs)
    ensures MatchAt(r, m.start) == Some(Match(m.start, m.start + |Prefix| + |ts|, m.start + |Prefix| + |ts| + 1 + |qs|))
  {
    SegmentAtOfText(r, m.start, ts, qs);
    EndOfReplaced(url, r, m, ts, qs);
    MatchOfLayout(r, m.start, ts, qs);
  }

  /** ... and nothing before it is a match, since r and url agree up to its 'p'. */
  lemma NoMatchBeforeReplaced(url: string, r: string, m: Match)
    requires FirstMatch(url, 0) == Some(m)
    requires m.start < |r| && r[m.start] == 'p'
    requires r[..m.start] == url[..m.start]
    ensures forall i | 0 <= i < m.start :: MatchAt(r, i).None?
  {
    var a := m.start;
    FirstMatchIsLeftmost(url, 0);
    MatchStartsWithP(url, a);
    assert AgreeUpTo(url, r, a) by {
      forall j | 0 <= j < a ensures url[j] == r[j] {
        assert url[j] == url[..a][j] && r[j] == r[..a][j];
      }
    }
    forall i | 0 <= i < a ensures MatchAt(r, i).None? {
      MatchAtAgree(url, r, i, a);
    }
  }

  /** Replacing url's first match m by a segment of digit runs makes that segment r's first match. */
  lemma FirstOfReplaced(url: string, r: string, m: Match, ts: string, qs: string)
    requires Replaced(url, r, m, ts, qs)
    ensures FirstMatch(r, 0) == Some(Match(m.start, m.start + |Prefix| + |ts|, m.start + |Prefix| + |ts| + 1 + |qs|))
  {
    var a := m.start;
    MatchOfReplaced(url, r, m, ts, qs);
    MatchStartsWithP(r, a);
    NoMatchBeforeReplaced(url, r, m);
    FirstMatchAt(r, 0, a);
  }

  /**
   * r is url with its first match m replaced by a segment of digit runs ts
   * and qs: the segment's runs are then r's capture groups.
   */
  lemma GroupsOfReplaced(url: string, r: string, m: Match, ts: string, qs: string)
    requires Replaced(url, r, m, ts, qs)
    ensures Groups(r) == Some((ts, qs))
  {
    GroupsInReplaced(url, r, m, ts, qs);
    GroupsOfSegment(url, r, m, ts, qs);
  }

  /** ... they are read from where the segment's digit runs lie. */
  lemma GroupsInReplaced(url: string, r: string, m: Match, ts: string, qs: string)
    requires Replaced(url, r, m, ts, qs)
    ensures Groups(r) == Some((r[m.start + |Prefix|..m.start + |Prefix| + |ts|], r[m.start + |Prefix| + |ts| + 1..m.start + |Prefix| + |ts| + 1 + |qs|]))
  {
    var eq := m.start + |Prefix| + |ts|;
    FirstOfReplaced(url, r, m, ts, qs);
    GroupsOfFirst(r, Match(m.start, eq, eq + 1 + |qs|));
  }

  /** Groups that are the digit runs of a segment laid out at a are ts and qs. */
  lemma GroupsOfSegment(url: string, r: string, m: Match, ts: string, qs: string)
    requires Replaced(url, r, m, ts, qs)
    requires Groups(r) == Some((r[m.start + |Prefix|..m.start + |Prefix| + |ts|], r[m.start + |Prefix| + |ts| + 1..m.start + |Prefix| + |ts| + 1 + |qs|]))
    ensures Groups(r) == Some((ts, qs))
  {
    SegmentAtOfText(r, m.start, ts, qs);
  }

  /** Parsing a rewritten link gives back the type and page written into it. */
  lemma RewriteRoundTrip(url: string, t: nat, q: nat)
    requires ParseHref(url).Some?
    ensures ParseHref(Rewrite(url, t, q)) == Some((t, q))
  {
    var m := FirstMatch(url, 0).value;
    GroupsOfReplaced(url, Rewrite(url, t, q), m, NatToString(t), NatToString(q));
    DecimalRoundTrip(t);
    DecimalRoundTrip(q);
  }
}

=== FILE: pager_client.dfy ===
/**
 * The browser side of the pager (amd/src/pagination.js): a click on a pager
 * link reads the type and page from the link, asks the web service for that
 * page of 25 rows, and redraws the group's table body and pager from the
 * reply.
 *
 * jQuery, the DOM and the ajax call are collaborators: a group's table is an
 * object holding the HTML of its rows, the HTML of its pager div (if it has
 * one) and the table's opacity; the reply is the service's PageResponse.
 */
module PagerClient {
  import opened Wrappers
  import opened Text
  import opened Paging
  import opened Usage
  import opened PaginationService
  import opened HrefCodec

  /** The client always asks for pages of 25 rows. */
  const PerPage: nat := 25

  /** What the client sends to local_ltiusage_get_pagination. */
  datatype Request = Request(typeid: nat, page: nat, perpage: nat)

  /** The request a click on a link with this href sends, if the href carries a page parameter. */
  function ClickRequest(href: string): (req: Option<Request>)
    ensures req.Some? <==> ParseHref(href).Some?
    ensures req.Some? ==> (req.value.typeid, req.value.page) == ParseHref(href).value && req.value.perpage == PerPage
  {
    match ParseHref(href)
    case None => None
    case Some((t, p)) => Some(Request(t, p, PerPage))
  }

  /**
   * The pieces of a redrawn pager, in order. A link records the page it
   * leads to; its href is the clicked url with the page parameter rewritten.
   */
  datatype PagerPart = PrevLink(page: nat) | Indicator(text: string) | NextLink(page: nat)

  /**
   * "Page <n> of <total pages>": read back, the first number is the 1-based
   * page number and the second the page count.
   */
  function IndicatorText(pageNum: nat, totalPages: nat): (text: string)
    ensures var n := |NatToString(pageNum + 1)|;
      && |text| == 9 + n + |NatToString(totalPages)|
      && text[..5] == "Page " && text[5 + n..9 + n] == " of "
      && AllDigits(text[5..5 + n]) && DecimalValue(text[5..5 + n]) == pageNum + 1
      && AllDigits(text[9 + n..]) && DecimalValue(text[9 + n..]) == totalPages
  {
    var page, pages := NatToString(pageNum + 1), NatToString(totalPages);
    var text := "Page " + page + " of " + pages;
    assert text[5..5 + |page|] == page && text[9 + |page|..] == pages;
    DecimalRoundTrip(pageNum + 1);
    DecimalRoundTrip(totalPages);
    text
  }

  /**
   * The pager for page pageNum when the reply counts total rows: a Previous
   * link unless on the first page, the indicator, and a Next link unless on
   * the last page of 25.
   */
  function Pager(pageNum: nat, total: nat): (parts: seq<PagerPart>)
    ensures 1 <= |parts| <= 3
    ensures forall k | 0 <= k < |parts| ::
      && (parts[k].PrevLink? ==> parts[k].page + 1 == pageNum)
      && (parts[k].NextLink? ==> parts[k].page == pageNum + 1 < CeilDiv(total, PerPage))
  {
    var totalPages := CeilDiv(total, PerPage);
    (if pageNum > 0 then [PrevLink(pageNum - 1)] else [])
    + [Indicator(IndicatorText(pageNum, totalPages))]
    + (if pageNum < totalPages as int - 1 then [NextLink(pageNum + 1)] else [])
  }

  /** Where the indicator sits: after the Previous link, if there is one. */
  function IndicatorIndex(pageNum: nat): nat {
    if pageNum > 0 then 1 else 0
  }

  /**
   * The pager's layout: a Previous link to the page before comes first
   * exactly when pageNum > 0, the indicator appears once, and a Next link to
   * the page after comes last exactly when that page of 25 starts before the
   * end of the rows.
   */
  lemma PagerShape(pageNum: nat, total: nat)
    ensures var parts := Pager(pageNum, total);
      && |parts| == IndicatorIndex(pageNum) + 1 + (if (pageNum + 1) * PerPage < total then 1 else 0)
      && (parts[0].PrevLink? <==> pageNum > 0)
      && (parts[0].PrevLink? ==> parts[0].page == pageNum - 1)
      && (parts[|parts| - 1].NextLink? <==> pageNum < CeilDiv(total, PerPage) as int - 1)
      && (parts[|parts| - 1].NextLink? <==> (pageNum + 1) * PerPage < total)
      && (parts[|parts| - 1].NextLink? ==> parts[|parts| - 1].page == pageNum + 1)
      && (forall k | 0 <= k < |parts| :: parts[k].Indicator? <==> k == IndicatorIndex(pageNum))
      && parts[IndicatorIndex(pageNum)].text == IndicatorText(pageNum, CeilDiv(total, PerPage))
  {
    NextPageStarts(total, PerPage, pageNum + 1);
  }

  /** The href of a pager link: url with its page parameter set to (typeId, page). */
  function LinkHref(url: string, typeId: nat, page: nat): string {
    Rewrite(url, typeId, page)
  }

  /**
   * On a pager drawn for a link that carries a page parameter, clicking any
   * link of the pager requests that link's page of the same type.
   */
  lemma PagerLinksNavigate(url: string, typeId: nat, pageNum: nat, total: nat)
    requires ParseHref(url).Some?
    ensures var parts := Pager(pageNum, total);
      forall k | 0 <= k < |parts| && !parts[k].Indicator? ::
        ClickRequest(LinkHref(url, typeId, parts[k].page)) == Some(Request(typeId, parts[k].page, PerPage))
  {
    var parts := Pager(pageNum, total);
    forall k | 0 <= k < |parts| && !parts[k].Indicator?
      ensures ClickRequest(LinkHref(url, typeId, parts[k].page)) == Some(Request(typeId, parts[k].page, PerPage))
    {
      RewriteRoundTrip(url, typeId, parts[k].page);
    }
  }

  /**
   * The client's pager agrees with the reply to its own request: it shows
   * Previous exactly when has_prev, Next exactly when has_next, and the
   * indicator reads currentpage of totalpages.
   */
  lemma PagerAgreesWithService(
    typeId: nat, pageNum: nat, candelete: bool,
    fetched: seq<LtiRecord>, types: map<int, string>, links: Links)
    ensures var resp := Response(typeId, pageNum, PerPage, candelete, fetched, types, links);
      var parts := Pager(pageNum, resp.total);
      && (parts[0].PrevLink? <==> resp.hasPrev)
      && (parts[|parts| - 1].NextLink? <==> resp.hasNext)
      && parts[IndicatorIndex(pageNum)].text == "Page " + IntToString(resp.currentpage) + " of " + NatToString(resp.totalpages)
  {
    var resp := Response(typeId, pageNum, PerPage, candelete, fetched, types, links);
    PagerShape(pageNum, resp.total);
    assert resp.totalpages == CeilDiv(resp.total, PerPage) by {
      CeilDivUnique(resp.total, PerPage, resp.totalpages);
    }
  }

  /**
   * The HTML of one pager part drawn for a click on url of type typeId: the
   * indicator is its text, and a link is an anchor whose href is the url
   * with the page parameter rewritten to the link's page, followed by the
   * button class and the link's own label.
   */
  function PartHtml(url: string, typeId: nat, part: PagerPart): (html: string)
    ensures part.Indicator? ==> html == part.text
    ensures part.PrevLink? ==>
      var href := LinkHref(url, typeId, part.page);
      && |html| == |PrevOpen| + |href| + |PrevClose|
      && html[..|PrevOpen|] == PrevOpen
      && html[|PrevOpen|..|PrevOpen| + |href|] == href
      && html[|PrevOpen| + |href|..] == PrevClose
    ensures part.NextLink? ==>
      var href := LinkHref(url, typeId, part.page);
      && |html| == |NextOpen| + |href| + |NextClose|
      && html[..|NextOpen|] == NextOpen
      && html[|NextOpen|..|NextOpen| + |href|] == href
      && html[|NextOpen| + |href|..] == NextClose
  {
    match part
    case PrevLink(page) =>
      PartsOfConcat(PrevOpen, LinkHref(url, typeId, page), PrevClose);
      PrevOpen + LinkHref(url, typeId, page) + PrevClose
    case Indicator(text) => text
    case NextLink(page) =>
      PartsOfConcat(NextOpen, LinkHref(url, typeId, page), NextClose);
      NextOpen + LinkHref(url, typeId, page) + NextClose
  }

  const PrevOpen := "<a href=\""
  const PrevClose := "\" class=\"btn btn-secondary\">&lsaquo; Previous</a> "
  const NextOpen := " <a href=\""
  const NextClose := "\" class=\"btn btn-secondary\">Next &rsaquo;</a>"

  /** The pager div's new content: the parts' HTML, one after another. */
  function PagerHtml(url: string, typeId: nat, parts: seq<PagerPart>): string {
    if parts == [] then ""
    else PagerHtml(url, typeId, parts[..|parts| - 1]) + PartHtml(url, typeId, parts[|parts| - 1])
  }

  /** The pager HTML opens with the first part's HTML and closes with the last one's. */
  lemma {:induction false} PagerHtmlEnds(url: string, typeId: nat, parts: seq<PagerPart>)
    ensures var html := PagerHtml(url, typeId, parts);
      parts != [] ==>
      var first, last := PartHtml(url, typeId, parts[0]), PartHtml(url, typeId, parts[|parts| - 1]);
      && |first| <= |html| && html[..|first|] == first
      && |last| <= |html| && html[|html| - |last|..] == last
  {
    if parts != [] {
      var init := parts[..|parts| - 1];
      var last := PartHtml(url, typeId, parts[|parts| - 1]);
      PartsOfConcat(PagerHtml(url, typeId, init), last, []);
      if init != [] {
        PagerHtmlEnds(url, typeId, init);
        assert init[0] == parts[0];
        var first := PartHtml(url, typeId, parts[0]);
        var front := PagerHtml(url, typeId, init);
        assert (front + last)[..|first|] == front[..|first|];
      } else {
        assert PagerHtml(url, typeId, parts) == "" + last;
      }
    }
  }

  /** The delete cell: a link to the delete action behind a confirmation. */
  function DeleteCell(deletelink: string): string {
    "<td><a href=\"" + deletelink + DeleteCellTail
  }

  const DeleteCellTail := "\" onclick=\"return confirm('Are you sure you want to delete this LTI activity?');\">Delete</a></td>"

  /** The Open cell: a link to the activity. */
  function OpenCell(link: string): string {
    "<td><a href=\"" + link + "\">Open</a></td>"
  }

  /** A plain table cell holding text. */
  function Cell(text: string): string {
    "<td>" + text + "</td>"
  }

  /** A row's course, activity and visibility cells. */
  function TextCells(row: Row): string {
    Cell(row.course) + Cell(row.name) + Cell(IntToString(row.visible))
  }

  /** One table row: course, activity, visibility and an Open link, then the delete cell if shown. */
  function RowHtml(row: Row, showDelete: bool): string {
    "<tr>" + (TextCells(row) + OpenCell(row.link)) + (if showDelete then DeleteCell(row.deletelink) else "") + "</tr>"
  }

  /** The three parts of a concatenation are found where they were put. */
  lemma PartsOfConcat<T>(a: seq<T>, b: seq<T>, c: seq<T>)
    ensures (a + b + c)[..|a|] == a
    ensures (a + b + c)[|a|..|a| + |b|] == b
    ensures (a + b + c)[|a| + |b|..] == c
  {
  }

  /** A concatenation of four parts opens with the first. */
  lemma OpensWith<T>(a: seq<T>, b: seq<T>, c: seq<T>, d: seq<T>)
    ensures (a + b + c + d)[..|a|] == a
  {
    assert a + b + c + d == a + (b + c + d);
  }

  /** With an empty third part, the second part's last piece ends just before the fourth part. */
  lemma NextToLast<T>(a: seq<T>, b: seq<T>, c: seq<T>, d: seq<T>)
    ensures a + (b + c) + [] + d == (a + b) + c + d
  {
  }

  /** The delete cell is one cell, and the link it holds is the row's delete link, unchanged. */
  lemma DeleteCellHoldsLink(deletelink: string)
    ensures var cell := DeleteCell(deletelink);
      && |cell| > 22 + |deletelink|
      && cell[..13] == "<td><a href=\"" && cell[13..13 + |deletelink|] == deletelink
      && cell[|cell| - 5..] == "</td>"
  {
    PartsOfConcat("<td><a href=\"", deletelink, DeleteCellTail);
    var tail := DeleteCellTail;
    assert tail[|tail| - 5..] == "</td>";
  }

  /** A plain cell is its text between <td> and </td>. */
  lemma CellHoldsText(text: string)
    ensures var cell := Cell(text);
      && |cell| == |text| + 9
      && cell[..4] == "<td>" && cell[4..4 + |text|] == text && cell[4 + |text|..] == "</td>"
  {
    PartsOfConcat("<td>", text, "</td>");
  }

  /** A concatenation of four parts opens with the first two. */
  lemma OpensWithTwo<T>(a: seq<T>, b: seq<T>, c: seq<T>, d: seq<T>)
    ensures (a + b + c + d)[..|a| + |b|] == a + b
  {
    assert a + b + c + d == (a + b) + (c + d);
  }

  /** Five parts, the last four grouped, are the five parts in a row. */
  lemma Regroup<T>(a: seq<T>, b: seq<T>, c: seq<T>, d: seq<T>, e: seq<T>)
    ensures a + (b + c + d + e) == a + b + c + d + e
  {
  }

  /**
   * After <tr>, a row holds the course, activity and visibility cells, in
   * that order, and then the Open cell.
   */
  lemma RowOpensWithCells(row: Row, showDelete: bool)
    ensures var html := RowHtml(row, showDelete);
      var front := "<tr>" + Cell(row.course) + Cell(row.name) + Cell(IntToString(row.visible)) + OpenCell(row.link);
      |front| <= |html| && html[..|front|] == front
  {
    var cell := if showDelete then DeleteCell(row.deletelink) else "";
    OpensWithTwo("<tr>", TextCells(row) + OpenCell(row.link), cell, "</tr>");
    Regroup("<tr>", Cell(row.course), Cell(row.name), Cell(IntToString(row.visible)), OpenCell(row.link));
  }

  /** A row opens with <tr> and closes with </tr>. */
  lemma RowIsTagged(row: Row, showDelete: bool)
    ensures var html := RowHtml(row, showDelete);
      |html| >= 9 && html[..4] == "<tr>" && html[|html| - 5..] == "</tr>"
  {
    var cell := if showDelete then DeleteCell(row.deletelink) else "";
    OpensWith("<tr>", TextCells(row) + OpenCell(row.link), cell, "</tr>");
    PartsOfConcat("<tr>" + (TextCells(row) + OpenCell(row.link)), cell, "</tr>");
  }

  /** A row's last cell is the delete cell when it is shown and the Open cell otherwise. */
  lemma RowEndsWithLastCell(row: Row, showDelete: bool)
    ensures var html := RowHtml(row, showDelete);
      var last := if showDelete then DeleteCell(row.deletelink) else OpenCell(row.link);
      |html| >= |last| + 5 && html[|html| - 5 - |last|..|html| - 5] == last
  {
    if showDelete {
      PartsOfConcat("<tr>" + (TextCells(row) + OpenCell(row.link)), DeleteCell(row.deletelink), "</tr>");
    } else {
      NextToLast("<tr>", TextCells(row), OpenCell(row.link), "</tr>");
      PartsOfConcat("<tr>" + TextCells(row), OpenCell(row.link), "</tr>");
    }
  }

  /**
   * Showing the delete cell changes nothing in a row but the cell itself,
   * which goes last, just before the row closes.
   */
  lemma DeleteCellIsLastCell(row: Row)
    ensures var hidden := RowHtml(row, false);
      && |hidden| >= |"</tr>"|
      && hidden[|hidden| - |"</tr>"|..] == "</tr>"
      && RowHtml(row, true) == hidden[..|hidden| - |"</tr>"|] + DeleteCell(row.deletelink) + "</tr>"
  {
    PartsOfConcat("<tr>" + (TextCells(row) + OpenCell(row.link)), [], "</tr>");
  }

  /** A field of the reply as the browser sees the decoded JSON object. */
  datatype JsonValue = JBool(b: bool) | JInt(i: int) | JString(s: string) | JRows(rows: seq<Row>) | Undefined

  /** The keys of the reply object, as the service declares them. */
  const ResponseKeys: seq<string> := [
    "typeid", "typename", "rows", "total", "page", "perpage", "candelete",
    "has_prev", "has_next", "prev", "next", "totalpages", "currentpage", "pageurl"]

  /** response[key]: the field under that key, undefined for any other key. */
  function Field(resp: PageResponse, key: string): JsonValue {
    if key == "typeid" then JInt(resp.typeid)
    else if key == "typename" then JString(resp.typename)
    else if key == "rows" then JRows(resp.rows)
    else if key == "total" then JInt(resp.total)
    else if key == "page" then JInt(resp.page)
    else if key == "perpage" then JInt(resp.perpage)
    else if key == "candelete" then JBool(resp.candelete)
    else if key == "has_prev" then JBool(resp.hasPrev)
    else if key == "has_next" then JBool(resp.hasNext)
    else if key == "prev" then JInt(resp.prev)
    else if key == "next" then JInt(resp.next)
    else if key == "totalpages" then JInt(resp.totalpages)
    else if key == "currentpage" then JInt(resp.currentpage)
    else if key == "pageurl" then JString(resp.pageurl)
    else Undefined
  }

  /** The reply object has a field under exactly the declared keys. */
  lemma FieldsAreTheDeclaredKeys(resp: PageResponse, key: string)
    ensures Field(resp, key) != Undefined <==> key in ResponseKeys
  {
  }

  /** JavaScript truthiness of a field in a condition. */
  function Truthy(v: JsonValue): bool {
    match v
    case JBool(b) => b
    case JInt(i) => i != 0
    case JString(s) => s != ""
    case JRows(_) => true
    case Undefined => false
  }

  /**
   * The condition the client tests before adding a delete cell, as written:
   * response.can_delete. The reply has no such field, so it never holds, not
   * even for a site admin.
   */
  function DeleteCellAsWritten(resp: PageResponse): (show: bool)
    ensures !show
  {
    assert "can_delete" !in ResponseKeys;
    FieldsAreTheDeclaredKeys(resp, "can_delete");
    Truthy(Field(resp, "can_delete"))
  }

  /** The condition as intended: the reply's candelete field, which is exactly the service's permission. */
  function ShowDeleteCell(resp: PageResponse): (show: bool)
    ensures show == resp.candelete
  {
    Truthy(Field(resp, "candelete"))
  }

  /** A group's table on the page, as the client script changes it. */
  class TableGroup {
    /** The HTML of the rows in the table body. */
    var tbody: seq<string>
    /** The content of the group's pager div; None when the group has no pager. */
    var pager: Option<string>
    /** The table's CSS opacity. */
    var opacity: string

    constructor(rows: seq<string>, pagerHtml: Option<string>)
      ensures tbody == rows && pager == pagerHtml && opacity == "1"
    {
      tbody := rows;
      pager := pagerHtml;
      opacity := "1";
    }

    /**
     * A click on a pager link: the table is dimmed and the request for the
     * link's page is sent. An href without a page parameter stops the handler
     * before it changes anything.
     */
    method Click(href: string) returns (req: Option<Request>)
      modifies this
      ensures req == ClickRequest(href)
      ensures req.None? ==> unchanged(this)
      ensures req.Some? ==> tbody == old(tbody) && pager == old(pager) && opacity == "0.5"
    {
      var pageMatch := ParseHref(href);
      if pageMatch.None? {
        return None;
      }
      var (typeId, pageNum) := pageMatch.value;
      opacity := "0.5";
      req := Some(Request(typeId, pageNum, PerPage));
    }

    /**
     * The reply callback as written: the body is rebuilt from the reply's
     * rows, testing response.can_delete for the delete cell, so no row gets
     * one; the pager div (if the group has one) is redrawn, and the table is
     * shown again.
     */
    method Done(url: string, typeId: nat, pageNum: nat, resp: PageResponse)
      modifies this
      ensures |tbody| == |resp.rows|
      ensures forall k | 0 <= k < |resp.rows| :: tbody[k] == RowHtml(resp.rows[k], false)
      ensures pager == if old(pager).Some? then Some(PagerHtml(url, typeId, Pager(pageNum, resp.total))) else None
      ensures opacity == "1"
    {
      Redraw(url, typeId, pageNum, resp, DeleteCellAsWritten(resp));
    }

    /**
     * The reply callback as intended: the same redraw, with a delete cell on
     * every row exactly when the reply's candelete is set.
     */
    method DoneIntended(url: string, typeId: nat, pageNum: nat, resp: PageResponse)
      modifies this
      ensures |tbody| == |resp.rows|
      ensures forall k | 0 <= k < |resp.rows| :: tbody[k] == RowHtml(resp.rows[k], resp.candelete)
      ensures pager == if old(pager).Some? then Some(PagerHtml(url, typeId, Pager(pageNum, resp.total))) else None
      ensures opacity == "1"
    {
      Redraw(url, typeId, pageNum, resp, ShowDeleteCell(resp));
    }

    /** The redraw after a reply, for a given choice of delete cell. */
    method Redraw(url: string, typeId: nat, pageNum: nat, resp: PageResponse, showDelete: bool)
      modifies this
      ensures |tbody| == |resp.rows|
      ensures forall k | 0 <= k < |resp.rows| :: tbody[k] == RowHtml(resp.rows[k], showDelete)
      ensures pager == if old(pager).Some? then Some(PagerHtml(url, typeId, Pager(pageNum, resp.total))) else None
      ensures opacity == "1"
    {
      tbody := DrawRows(resp.rows, row => RowHtml(row, showDelete));
      if pager.Some? {
        var html := DrawPager(url, typeId, pageNum, resp.total);
        pager := Some(html);
      }
      opacity := "1";
    }
  }

  /**
   * The client's table body drawing: the forEach over the reply's rows that
   * appends each row's HTML, as draw renders it, to the emptied body.
   */
  method DrawRows(rows: seq<Row>, draw: Row -> string) returns (html: seq<string>)
    ensures |html| == |rows|
    ensures forall k | 0 <= k < |rows| :: html[k] == draw(rows[k])
  {
    html := [];
    var i := 0;
    while i < |rows|
      invariant 0 <= i <= |rows|
      invariant |html| == i
      invariant forall k | 0 <= k < i :: html[k] == draw(rows[k])
    {
      html := html + [draw(rows[i])];
      i := i + 1;
    }
  }

  /** The client's pager drawing: Previous link, indicator, Next link, appended in turn. */
  method DrawPager(url: string, typeId: nat, pageNum: nat, total: nat) returns (html: string)
    ensures html == PagerHtml(url, typeId, Pager(pageNum, total))
  {
    var totalPages := CeilDiv(total, PerPage);
    ghost var drawn: seq<PagerPart> := [];
    html := "";
    if pageNum > 0 {
      html := html + PartHtml(url, typeId, PrevLink(pageNum - 1));
      drawn := [PrevLink(pageNum - 1)];
      assert drawn[..0] == [];
    }
    assert html == PagerHtml(url, typeId, drawn);
    var indicator := Indicator(IndicatorText(pageNum, totalPages));
    html := html + PartHtml(url, typeId, indicator);
    assert (drawn + [indicator])[..|drawn|] == drawn;
    drawn := drawn + [indicator];
    assert html == PagerHtml(url, typeId, drawn);
    if pageNum < totalPages as int - 1 {
      html := html + PartHtml(url, typeId, NextLink(pageNum + 1));
      assert (drawn + [NextLink(pageNum + 1)])[..|drawn|] == drawn;
      drawn := drawn + [NextLink(pageNum + 1)];
      assert html == PagerHtml(url, typeId, drawn);
    }
    assert drawn == Pager(pageNum, total);
  }
}

=== FILE: pagination_service.dfy ===
/**
 * The web service local_ltiusage_get_pagination: one page of the activities
 * that use one LTI tool type, sorted by (course name, activity name), with
 * the pager fields the client redraws from.
 *
 * The database query, the capability check and moodle_url are collaborators:
 * the fetched rows, the caller's delete permission, the tool type names and
 * the URL builders are parameters.
 */
module PaginationService {
  import opened Collation
  import opened Sorting
  import opened Paging
  import opened Usage

  /** One row of the activity query, reduced to the columns the service reads. */
  datatype LtiRecord = LtiRecord(coursename: string, activityname: string, cmid: int, visible: int)

  /** The service's reply, field for field. */
  datatype PageResponse = PageResponse(
    typeid: int,
    typename: string,
    rows: seq<Row>,
    total: nat,
    page: int,
    perpage: nat,
    candelete: bool,
    hasPrev: bool,
    hasNext: bool,
    prev: int,
    next: int,
    totalpages: nat,
    currentpage: int,
    pageurl: string)

  const IndexUrl := "/local/ltiusage/index.php"

  /** The usort comparator on fetched records: (course name, activity name) ascending. */
  predicate RecordLeq(a: LtiRecord, b: LtiRecord) {
    KeyLeq(SortKey(a.coursename, a.activityname), SortKey(b.coursename, b.activityname))
  }

  lemma RecordOrderIsTotalPreorder()
    ensures TotalPreorder(RecordLeq)
  {
    forall x: LtiRecord, y: LtiRecord ensures RecordLeq(x, y) || RecordLeq(y, x) {
      KeyLeqTotal(SortKey(x.coursename, x.activityname), SortKey(y.coursename, y.activityname));
    }
    forall x: LtiRecord, y: LtiRecord, z: LtiRecord | RecordLeq(x, y) && RecordLeq(y, z)
      ensures RecordLeq(x, z)
    {
      KeyLeqTransitive(
        SortKey(x.coursename, x.activityname),
        SortKey(y.coursename, y.activityname),
        SortKey(z.coursename, z.activityname));
    }
  }

  /**
   * The group name: the tool type's own name for a positive typeid with a
   * type record, the manual-group name otherwise.
   */
  function TypeName(typeid: int, types: map<int, string>): (name: string)
    ensures typeid > 0 && typeid in types ==> name == types[typeid]
    ensures typeid <= 0 || typeid !in types ==> name == ManualTypeName
  {
    if typeid > 0 && typeid in types then types[typeid] else ManualTypeName
  }

  /**
   * One output row: it sorts as its record does, links to the activity, and
   * carries a delete link and flag exactly when the caller may delete.
   */
  function FormatRow(r: LtiRecord, candelete: bool, links: Links): (row: Row)
    ensures RowKey(row) == SortKey(r.coursename, r.activityname)
    ensures row.cmid == r.cmid && row.visible == r.visible && row.link == links.view(r.cmid)
    ensures row.showDelete == candelete
    ensures row.deletelink == if candelete then links.delete(r.cmid) else ""
  {
    Row(r.coursename, r.activityname, r.visible, links.view(r.cmid),
        if candelete then links.delete(r.cmid) else "", candelete, r.cmid)
  }

  /** The rows for records, one each, in order; delete links only for a caller who may delete. */
  function FormatRows(records: seq<LtiRecord>, candelete: bool, links: Links): (rows: seq<Row>)
    ensures |rows| == |records|
    ensures forall k | 0 <= k < |rows| :: rows[k].showDelete == candelete
    ensures !candelete ==> forall k | 0 <= k < |rows| :: rows[k].deletelink == ""
    ensures forall k | 0 <= k < |rows| :: rows[k] == FormatRow(records[k], candelete, links)
  {
    seq(|records|, k requires 0 <= k < |records| => FormatRow(records[k], candelete, links))
  }

  /** The fetched records in the order the service lists them. */
  function Sorted(fetched: seq<LtiRecord>): (sorted: seq<LtiRecord>)
    ensures |sorted| == |fetched| && multiset(sorted) == multiset(fetched)
    ensures SortedBy(sorted, RecordLeq)
  {
    SortByPermutes(fetched, RecordLeq);
    RecordOrderIsTotalPreorder();
    SortByIsSorted(fetched, RecordLeq);
    SortBy(fetched, RecordLeq)
  }

  /**
   * The rows of one page: the formatted records of the sorted list from
   * page * perpage on, at most perpage of them, in order.
   */
  function PageRows(fetched: seq<LtiRecord>, page: int, perpage: nat, candelete: bool, links: Links): (rows: seq<Row>)
    requires perpage > 0
    ensures |rows| <= perpage
    ensures SortedBy(rows, RowLeq)
    ensures page >= 0 ==> |rows| == Max(0, Min(perpage, |fetched| - page * perpage))
    ensures page >= 0 ==> forall k | 0 <= k < |rows| ::
      rows[k] == FormatRow(Sorted(fetched)[page * perpage + k], candelete, links)
    ensures page * perpage >= |fetched| ==> rows == []
  {
    var sorted := Sorted(fetched);
    SliceIsSorted(sorted, page * perpage, perpage);
    FormattedPage(sorted, page, perpage, candelete, links);
    PageLength(sorted, page, perpage);
    FormatRows(ArraySlice(sorted, page * perpage, perpage), candelete, links)
  }

  /** For a page from 0 up, the formatted slice holds the formatted records from page * perpage on. */
  lemma FormattedPage(sorted: seq<LtiRecord>, page: int, perpage: nat, candelete: bool, links: Links)
    ensures page >= 0 ==> var rows := FormatRows(ArraySlice(sorted, page * perpage, perpage), candelete, links);
      forall k | 0 <= k < |rows| :: rows[k] == FormatRow(sorted[page * perpage + k], candelete, links)
  {
    if page >= 0 {
      MulNonNegative(page, perpage);
      FormattedSliceAt(sorted, page * perpage, perpage, candelete, links);
    }
  }

  /** For a page from 0 up, the slice holds what is left from page * perpage on, at most perpage. */
  lemma PageLength(sorted: seq<LtiRecord>, page: int, perpage: nat)
    ensures page >= 0 ==> |ArraySlice(sorted, page * perpage, perpage)| == Max(0, Min(perpage, |sorted| - page * perpage))
  {
    if page >= 0 {
      MulNonNegative(page, perpage);
    }
  }

  /**
   * A negative page counts back from the end of the sorted list, as
   * array_slice does with a negative offset: the rows are the formatted
   * records from max(0, total + page * perpage) on, at most perpage of them.
   */
  lemma PageRowsBeforeStart(fetched: seq<LtiRecord>, page: int, perpage: nat, candelete: bool, links: Links)
    requires perpage > 0
    requires page < 0
    ensures var rows := PageRows(fetched, page, perpage, candelete, links);
      var start := Max(0, |fetched| + page * perpage);
      && |rows| == Min(perpage, |fetched| - start)
      && forall k | 0 <= k < |rows| :: start + k < |fetched| && rows[k] == FormatRow(Sorted(fetched)[start + k], candelete, links)
  {
  }

  lemma FormattedSliceAt(sorted: seq<LtiRecord>, offset: nat, perpage: nat, candelete: bool, links: Links)
    ensures var rows := FormatRows(ArraySlice(sorted, offset, perpage), candelete, links);
      forall k | 0 <= k < |rows| :: rows[k] == FormatRow(sorted[offset + k], candelete, links)
  {
  }

  lemma SliceIsSorted(sorted: seq<LtiRecord>, offset: int, length: nat)
    requires SortedBy(sorted, RecordLeq)
    ensures SortedBy(ArraySlice(sorted, offset, length), RecordLeq)
  {
  }

  /** The service's reply for (typeid, page, perpage) over the records fetched for typeid. */
  function Response(
    typeid: int, page: int, perpage: nat, candelete: bool,
    fetched: seq<LtiRecord>, types: map<int, string>, links: Links): (r: PageResponse)
    requires perpage > 0
    ensures r.typeid == typeid && r.page == page && r.perpage == perpage && r.candelete == candelete
    ensures r.typename == if typeid > 0 && typeid in types then types[typeid] else ManualTypeName
    ensures r.total == |fetched|
    ensures r.rows == PageRows(fetched, page, perpage, candelete, links)
    ensures (r.totalpages - 1) * perpage < r.total <= r.totalpages * perpage
    ensures r.totalpages == 0 <==> r.total == 0
    ensures r.currentpage == page + 1
    ensures r.hasPrev <==> page > 0
    ensures r.hasNext <==> (page + 1) * perpage < r.total
    ensures r.prev == page - 1 && r.next == page + 1
    ensures r.pageurl == IndexUrl
  {
    var total := |fetched|;
    var totalpages := CeilDiv(total, perpage);
    NextPageStarts(total, perpage, page + 1);
    PageResponse(
      typeid, TypeName(typeid, types), PageRows(fetched, page, perpage, candelete, links),
      total, page, perpage, candelete,
      page > 0, page < totalpages as int - 1, page - 1, page + 1,
      totalpages, page + 1, IndexUrl)
  }

  /** Every row of a reply carries the caller's delete permission, and no delete link without it. */
  lemma ReplyRowsFollowPermission(
    typeid: int, page: int, perpage: nat, candelete: bool,
    fetched: seq<LtiRecord>, types: map<int, string>, links: Links)
    requires perpage > 0
    ensures var rows := Response(typeid, page, perpage, candelete, fetched, types, links).rows;
      && (forall k | 0 <= k < |rows| :: rows[k].showDelete == candelete)
      && (!candelete ==> forall k | 0 <= k < |rows| :: rows[k].deletelink == "")
  {
  }

  /**
   * has_next holds exactly when the following page has rows.
   */
  lemma HasNextIffNextPageNonEmpty(
    typeid: int, page: int, perpage: nat, candelete: bool,
    fetched: seq<LtiRecord>, types: map<int, string>, links: Links)
    requires perpage > 0
    requires page >= -1
    ensures Response(typeid, page, perpage, candelete, fetched, types, links).hasNext
       <==> Response(typeid, page + 1, perpage, candelete, fetched, types, links).rows != []
  {
    MulSucc(page + 1, perpage);
  }

  /** Concatenating the rows of pages 0 .. totalpages - 1 lists every sorted record exactly once. */
  lemma AllPagesListEverything(
    typeid: int, perpage: nat, candelete: bool,
    fetched: seq<LtiRecord>, types: map<int, string>, links: Links)
    requires perpage > 0
    ensures var n := CeilDiv(|fetched|, perpage);
      Flatten(seq(n, p requires 0 <= p < n => Response(typeid, p, perpage, candelete, fetched, types, links).rows))
      == FormatRows(Sorted(fetched), candelete, links)
  {
    var n := CeilDiv(|fetched|, perpage);
    var sorted := Sorted(fetched);
    SortByPermutes(fetched, RecordLeq);
    PagesReassemble(sorted, perpage);
    var pages := Pages(sorted, perpage, n);
    var rowPages := seq(n, p requires 0 <= p < n => Response(typeid, p, perpage, candelete, fetched, types, links).rows);
    forall p | 0 <= p < n ensures rowPages[p] == FormatRows(pages[p], candelete, links) {
    }
    FlattenFormat(pages, rowPages, candelete, links);
  }

  /** Formatting page by page and then concatenating equals concatenating and then formatting. */
  lemma {:induction false} FlattenFormat(pages: seq<seq<LtiRecord>>, rowPages: seq<seq<Row>>, candelete: bool, links: Links)
    requires |rowPages| == |pages|
    requires forall p | 0 <= p < |pages| :: rowPages[p] == FormatRows(pages[p], candelete, links)
    ensures Flatten(rowPages) == FormatRows(Flatten(pages), candelete, links)
  {
    if pages != [] {
      var m := |pages| - 1;
      FlattenFormat(pages[..m], rowPages[..m], candelete, links);
      assert FormatRows(Flatten(pages[..m]) + pages[m], candelete, links)
          == FormatRows(Flatten(pages[..m]), candelete, links) + FormatRows(pages[m], candelete, links);
    }
  }

  lemma FormatRowsAppend(records: seq<LtiRecord>, i: nat, candelete: bool, links: Links)
    requires i < |records|
    ensures FormatRows(records[..i + 1], candelete, links)
         == FormatRows(records[..i], candelete, links) + [FormatRow(records[i], candelete, links)]
  {
  }

  /**
   * get_pagination::execute: sorts the fetched records in place, cuts out the
   * page and formats its rows one by one.
   */
  method Execute(
    typeid: int, page: int, perpage: nat, candelete: bool,
    fetched: seq<LtiRecord>, types: map<int, string>, links: Links) returns (r: PageResponse)
    requires perpage > 0
    ensures r == Response(typeid, page, perpage, candelete, fetched, types, links)
  {
    var records := new LtiRecord[|fetched|](k requires 0 <= k < |fetched| => fetched[k]);
    assert records[..] == fetched;
    SortInPlace(records, RecordLeq);

    var typename := ManualTypeName;
    if typeid > 0 {
      if typeid in types {
        typename := types[typeid];
      }
    }

    var total := records.Length;
    var start := page * perpage;
    var paged := ArraySlice(records[..], start, perpage);

    var totalpages := CeilDiv(total, perpage);
    var currentpage := page + 1;
    var hasPrev := page > 0;
    var hasNext := page < totalpages as int - 1;
    var prev := page - 1;
    var next := page + 1;

    var rows: seq<Row> := [];
    var i := 0;
    while i < |paged|
      invariant 0 <= i <= |paged|
      invariant rows == FormatRows(paged[..i], candelete, links)
    {
      FormatRowsAppend(paged, i, candelete, links);
      rows := rows + [FormatRow(paged[i], candelete, links)];
      i := i + 1;
    }
    assert paged[..i] == paged;

    r := PageResponse(
      typeid, typename, rows, total, page, perpage, candelete,
      hasPrev, hasNext, prev, next, totalpages, currentpage, IndexUrl);
  }
}

=== FILE: paging.dfy ===
/**
 * The arithmetic both pagination paths share: PHP's array_slice for a positive
 * length, and the page count ceil(total / perpage).
 */
module Paging {

  function Min(a: int, b: int): int { if a <= b then a else b }
  function Max(a: int, b: int): int { if a >= b then a else b }

  /** Where array_slice starts: a non-negative offset from the front, a negative one from the end. */
  function SliceStart(n: nat, offset: int): (start: nat)
    ensures start <= n
  {
    if offset >= 0 then Min(offset, n) else Max(0, n + offset)
  }

  /**
   * array_slice($s, $offset, $length) for a positive length: at most `length`
   * consecutive elements; an offset at or past the end gives nothing, and a
   * negative offset counts back from the end (from the front once it passes it).
   */
  function ArraySlice<T>(s: seq<T>, offset: int, length: nat): (r: seq<T>)
    ensures |r| <= length
    ensures offset >= |s| ==> r == []
    ensures 0 <= offset <= |s| ==> |r| == Min(length, |s| - offset)
    ensures 0 <= offset ==> forall k | 0 <= k < |r| :: r[k] == s[offset + k]
    ensures offset < 0 ==> |r| == Min(length, |s| - Max(0, |s| + offset))
    ensures offset < 0 ==> forall k | 0 <= k < |r| :: r[k] == s[Max(0, |s| + offset) + k]
  {
    var start := SliceStart(|s|, offset);
    s[start..Min(|s|, start + length)]
  }

  /** ceil(total / perpage) for a positive perpage: the least page count that holds total items. */
  function CeilDiv(total: nat, perpage: nat): (pages: nat)
    requires perpage > 0
    ensures (pages - 1) * perpage < total <= pages * perpage
    ensures pages == 0 <==> total == 0
  {
    if total == 0 then 0 else 1 + CeilDiv(if total <= perpage then 0 else total - perpage, perpage)
  }

  /** The bounds pin the page count down: no other count holds total items with no page to spare. */
  lemma CeilDivUnique(total: nat, perpage: nat, n: nat)
    requires perpage > 0
    requires (n - 1) * perpage < total <= n * perpage
    ensures n == CeilDiv(total, perpage)
  {
    var c := CeilDiv(total, perpage);
    if n < c {
      MulMonotone(n, c - 1, perpage);
    } else if c < n {
      MulMonotone(c, n - 1, perpage);
    }
  }

  /** A page number is below the page count exactly when that page starts inside the list. */
  lemma NextPageStarts(total: nat, perpage: nat, p: int)
    requires perpage > 0
    ensures p < CeilDiv(total, perpage) <==> p * perpage < total
  {
    var pages := CeilDiv(total, perpage);
    if 0 <= p < pages {
      MulMonotone(p, pages - 1, perpage);
    } else if p >= pages {
      MulMonotone(pages, p, perpage);
    } else {
      assert p * perpage < 0;
    }
  }

  /** The first n pages of s, page p being array_slice(s, p * perpage, perpage). */
  function Pages<T>(s: seq<T>, perpage: nat, n: nat): seq<seq<T>>
  {
    seq(n, p requires 0 <= p < n => ArraySlice(s, p * perpage, perpage))
  }

  function Flatten<T>(pages: seq<seq<T>>): seq<T>
  {
    if pages == [] then [] else Flatten(pages[..|pages| - 1]) + pages[|pages| - 1]
  }

  lemma {:induction false} FirstPagesCover<T>(s: seq<T>, perpage: nat, n: nat)
    requires perpage > 0
    ensures Flatten(Pages(s, perpage, n)) == s[..Min(|s|, n * perpage)]
  {
    if n > 0 {
      var m := n - 1;
      FirstPagesCover(s, perpage, m);
      var pages := Pages(s, perpage, n);
      assert pages[..m] == Pages(s, perpage, m);
      PageAsSlice(s, perpage, m);
      MulNonNegative(m, perpage);
      ConcatSlices(s, Min(|s|, m * perpage), Min(|s|, n * perpage));
    }
  }

  /** Page m is the part of s between m * perpage and (m + 1) * perpage, cut to the end of s. */
  lemma PageAsSlice<T>(s: seq<T>, perpage: nat, m: nat)
    requires perpage > 0
    ensures Min(|s|, m * perpage) <= Min(|s|, (m + 1) * perpage)
    ensures ArraySlice(s, m * perpage, perpage) == s[Min(|s|, m * perpage)..Min(|s|, (m + 1) * perpage)]
  {
    MulSucc(m, perpage);
    MulNonNegative(m, perpage);
  }

  /** Reading every page in order gives back the whole sequence, once. */
  lemma PagesReassemble<T>(s: seq<T>, perpage: nat)
    requires perpage > 0
    ensures Flatten(Pages(s, perpage, CeilDiv(|s|, perpage))) == s
  {
    FirstPagesCover(s, perpage, CeilDiv(|s|, perpage));
    assert s[..|s|] == s;
  }

  /** Every page before the last is full; the last holds the remainder. */
  lemma PageSize<T>(s: seq<T>, perpage: nat, p: nat)
    requires perpage > 0
    requires p < CeilDiv(|s|, perpage)
    ensures p < CeilDiv(|s|, perpage) - 1 ==> |ArraySlice(s, p * perpage, perpage)| == perpage
    ensures p == CeilDiv(|s|, perpage) - 1 ==> |ArraySlice(s, p * perpage, perpage)| == |s| - p * perpage > 0
  {
    var pages := CeilDiv(|s|, perpage);
    if p < pages - 1 {
      MulMonotone(p + 1, pages - 1, perpage);
      MulSucc(p, perpage);
    } else {
      MulMonotone(p, pages - 1, perpage);
    }
  }

  lemma ConcatSlices<T>(s: seq<T>, lo: nat, hi: nat)
    requires lo <= hi <= |s|
    ensures s[..lo] + s[lo..hi] == s[..hi]
  {
  }

  lemma MulSucc(a: nat, c: nat)
    ensures (a + 1) * c == a * c + c
  {
  }

  lemma MulNonNegative(a: nat, b: nat)
    ensures a * b >= 0
  {
  }

  lemma MulMonotone(a: nat, b: nat, c: nat)
    requires a <= b
    ensures a * c <= b * c
  {
  }
}

=== FILE: sorting.dfy ===
/**
 * PHP's usort. Since PHP 8 usort is stable, so sorting with a comparator that
 * is a total preorder gives exactly the stable insertion sort `SortBy`, which
 * places each element after every earlier one that is not greater.
 */
module Sorting {

  /** `leq(x, y)` is the comparator returning at most 0: total and transitive. */
  ghost predicate TotalPreorder<T(!new)>(leq: (T, T) -> bool) {
    && (forall x, y :: leq(x, y) || leq(y, x))
    && (forall x, y, z :: leq(x, y) && leq(y, z) ==> leq(x, z))
  }

  ghost predicate SortedBy<T>(s: seq<T>, leq: (T, T) -> bool) {
    forall i, j | 0 <= i < j < |s| :: leq(s[i], s[j])
  }

  /** Inserts x into s after the longest suffix of s whose elements are greater than x. */
  function InsertLast<T>(s: seq<T>, x: T, leq: (T, T) -> bool): seq<T>
  {
    if s == [] then [x]
    else if leq(s[|s| - 1], x) then s + [x]
    else InsertLast(s[..|s| - 1], x, leq) + [s[|s| - 1]]
  }

  /** The result of a stable sort of s. */
  function SortBy<T>(s: seq<T>, leq: (T, T) -> bool): seq<T>
  {
    if s == [] then [] else InsertLast(SortBy(s[..|s| - 1], leq), s[|s| - 1], leq)
  }

  lemma {:induction false} InsertLastPermutes<T>(s: seq<T>, x: T, leq: (T, T) -> bool)
    ensures multiset(InsertLast(s, x, leq)) == multiset(s) + multiset{x}
  {
    if s != [] && !leq(s[|s| - 1], x) {
      assert s == s[..|s| - 1] + [s[|s| - 1]];
      InsertLastPermutes(s[..|s| - 1], x, leq);
    }
  }

  /** The sort only reorders: the result is a permutation of its input. */
  lemma {:induction false} SortByPermutes<T>(s: seq<T>, leq: (T, T) -> bool)
    ensures |SortBy(s, leq)| == |s|
    ensures multiset(SortBy(s, leq)) == multiset(s)
  {
    if s != [] {
      assert s == s[..|s| - 1] + [s[|s| - 1]];
      SortByPermutes(s[..|s| - 1], leq);
      InsertLastPermutes(SortBy(s[..|s| - 1], leq), s[|s| - 1], leq);
    }
    assert |multiset(SortBy(s, leq))| == |SortBy(s, leq)|;
  }

  lemma {:induction false} InsertLastSorted<T(!new)>(s: seq<T>, x: T, leq: (T, T) -> bool)
    requires TotalPreorder(leq)
    requires SortedBy(s, leq)
    ensures SortedBy(InsertLast(s, x, leq), leq)
  {
    if s == [] {
    } else if leq(s[|s| - 1], x) {
      var r := s + [x];
      forall i, j | 0 <= i < j < |r| ensures leq(r[i], r[j]) {
        if j == |s| && i < |s| - 1 {
          assert leq(s[i], s[|s| - 1]);
        }
      }
    } else {
      var init, last := s[..|s| - 1], s[|s| - 1];
      InsertLastSorted(init, x, leq);
      InsertLastPermutes(init, x, leq);
      var r' := InsertLast(init, x, leq);
      forall i | 0 <= i < |r'| ensures leq(r'[i], last) {
        assert r'[i] in multiset(r');
        if r'[i] != x {
          assert r'[i] in multiset(init);
          var k :| 0 <= k < |init| && init[k] == r'[i];
          assert s[k] == init[k];
        }
      }
      var r := r' + [last];
      forall i, j | 0 <= i < j < |r| ensures leq(r[i], r[j]) {
        if j < |r'| {
          assert r[i] == r'[i] && r[j] == r'[j];
        }
      }
    }
  }

  /** With a total preorder the sort orders its result ascending. */
  lemma {:induction false} SortByIsSorted<T(!new)>(s: seq<T>, leq: (T, T) -> bool)
    requires TotalPreorder(leq)
    ensures SortedBy(SortBy(s, leq), leq)
  {
    if s != [] {
      SortByIsSorted(s[..|s| - 1], leq);
      InsertLastSorted(SortBy(s[..|s| - 1], leq), s[|s| - 1], leq);
    }
  }

  /** Inserting x after a non-greater element and before greater ones puts it at j. */
  lemma {:induction false} InsertLastAt<T>(prefix: seq<T>, j: nat, x: T, leq: (T, T) -> bool)
    requires j <= |prefix|
    requires j == 0 || leq(prefix[j - 1], x)
    requires forall k | j <= k < |prefix| :: !leq(prefix[k], x)
    ensures InsertLast(prefix, x, leq) == prefix[..j] + [x] + prefix[j..]
  {
    if |prefix| > j {
      var init := prefix[..|prefix| - 1];
      InsertLastAt(init, j, x, leq);
      assert init[..j] == prefix[..j];
      assert init[j..] + [prefix[|prefix| - 1]] == prefix[j..];
    } else {
      assert prefix[..j] == prefix;
    }
  }

  /** What the shifting loop leaves behind: prefix with x put in at j. */
  lemma ShiftedPrefix<T>(cur: seq<T>, prefix: seq<T>, j: nat, x: T)
    requires j <= |prefix| < |cur|
    requires forall k | 0 <= k < j :: cur[k] == prefix[k]
    requires cur[j] == x
    requires forall k | j < k <= |prefix| :: cur[k] == prefix[k - 1]
    ensures cur[..|prefix| + 1] == prefix[..j] + [x] + prefix[j..]
  {
  }

  /** One step of the in-place sort: moves a[i] back into the sorted prefix a[..i]. */
  method InsertInPlace<T>(a: array<T>, i: nat, leq: (T, T) -> bool)
    requires i < a.Length
    modifies a
    ensures a[..i + 1] == InsertLast(old(a[..i]), old(a[i]), leq)
    ensures a[i + 1..] == old(a[i + 1..])
  {
    var x := a[i];
    ghost var prefix := a[..i];
    var j := i;
    while j > 0 && !leq(a[j - 1], x)
      invariant 0 <= j <= i
      invariant forall k | 0 <= k < j :: a[k] == prefix[k]
      invariant forall k | j < k <= i :: a[k] == prefix[k - 1]
      invariant forall k | i < k < a.Length :: a[k] == old(a[k])
      invariant forall k | j <= k < i :: !leq(prefix[k], x)
    {
      a[j] := a[j - 1];
      j := j - 1;
    }
    a[j] := x;
    InsertLastAt(prefix, j, x, leq);
    ShiftedPrefix(a[..], prefix, j, x);
    assert a[..][..i + 1] == a[..i + 1];
  }

  lemma SortByPrefixStep<T>(s: seq<T>, i: nat, leq: (T, T) -> bool)
    requires i < |s|
    ensures SortBy(s[..i + 1], leq) == InsertLast(SortBy(s[..i], leq), s[i], leq)
  {
    assert s[..i + 1][..i] == s[..i];
  }

  /** usort($a, cmp) on an array: sorts it in place, stably. */
  method SortInPlace<T>(a: array<T>, leq: (T, T) -> bool)
    modifies a
    ensures a[..] == SortBy(old(a[..]), leq)
  {
    ghost var orig := a[..];
    var i := 0;
    while i < a.Length
      invariant 0 <= i <= a.Length
      invariant a[..i] == SortBy(orig[..i], leq)
      invariant forall k | i <= k < a.Length :: a[k] == orig[k]
    {
      InsertInPlace(a, i, leq);
      SortByPrefixStep(orig, i, leq);
      i := i + 1;
    }
    assert orig[..a.Length] == orig;
  }
}

=== FILE: text.dfy ===
/**
 * Decimal digits: how JavaScript writes a number into a string, and how its
 * parseInt reads a run of digits back.
 */
module Text {

  predicate IsDigit(c: char) {
    '0' <= c <= '9'
  }

  predicate AllDigits(s: string) {
    forall i | 0 <= i < |s| :: IsDigit(s[i])
  }

  function DigitValue(c: char): (d: nat)
    requires IsDigit(c)
    ensures d < 10
  {
    c as int - '0' as int
  }

  function DigitChar(d: nat): (c: char)
    requires d < 10
    ensures IsDigit(c) && DigitValue(c) == d
  {
    ('0' as int + d) as char
  }

  /** The value parseInt gives a string of decimal digits; leading zeros are allowed. */
  function DecimalValue(s: string): (v: nat)
    requires AllDigits(s)
    ensures v == 0 <==> forall i | 0 <= i < |s| :: s[i] == '0'
  {
    if s == [] then 0 else 10 * DecimalValue(s[..|s| - 1]) + DigitValue(s[|s| - 1])
  }

  /** The decimal text of a natural number: never empty, all digits, no leading zero. */
  function NatToString(n: nat): (r: string)
    ensures |r| > 0 && AllDigits(r)
    ensures r[0] == '0' ==> n == 0
  {
    if n < 10 then [DigitChar(n)] else NatToString(n / 10) + [DigitChar(n % 10)]
  }

  /** The decimal text of an integer, with a leading minus sign when it is negative. */
  function IntToString(i: int): (r: string)
    ensures |r| > 0
    ensures i < 0 <==> r[0] == '-'
    ensures i < 0 ==> r[1..] == NatToString(-i)
    ensures i >= 0 ==> r == NatToString(i)
  {
    if i < 0 then "-" + NatToString(-i) else NatToString(i)
  }

  /** Reading back the text of a number gives the number. */
  lemma {:induction false} DecimalRoundTrip(n: nat)
    ensures DecimalValue(NatToString(n)) == n
  {
    if n >= 10 {
      var s := NatToString(n);
      assert s[..|s| - 1] == NatToString(n / 10);
      DecimalRoundTrip(n / 10);
    }
  }
}

=== FILE: usage.dfy ===
/**
 * What the full page and the web service share: the table row, the links a
 * row carries, the name shown for activities without a tool type, and the
 * row order.
 */
module Usage {
  import opened Collation
  import opened Sorting

  /** One table row: course, activity, visibility, view link and delete link. */
  datatype Row = Row(
    course: string,
    name: string,
    visible: int,
    link: string,
    deletelink: string,
    showDelete: bool,
    cmid: int)

  /**
   * The URLs moodle_url renders for a course module id: the activity's view
   * page and the course-module delete action (which embeds the session key).
   */
  datatype Links = Links(view: int -> string, delete: int -> string)

  /** The group name used for typeid <= 0 and for a tool type that has no record. */
  const ManualTypeName := "Custom/Manual LTI"

  /** Every row shows the delete control exactly as permitted, and has no delete link without permission. */
  ghost predicate FollowsPermission(rows: seq<Row>, canDelete: bool) {
    forall k | 0 <= k < |rows| :: rows[k].showDelete == canDelete && (!canDelete ==> rows[k].deletelink == "")
  }

  function RowKey(r: Row): SortKey {
    SortKey(r.course, r.name)
  }

  /** The usort comparator on rows: (course, name) ascending. */
  predicate RowLeq(a: Row, b: Row) {
    KeyLeq(RowKey(a), RowKey(b))
  }

  lemma RowOrderIsTotalPreorder()
    ensures TotalPreorder(RowLeq)
  {
    forall x: Row, y: Row ensures RowLeq(x, y) || RowLeq(y, x) {
      KeyLeqTotal(RowKey(x), RowKey(y));
    }
    forall x: Row, y: Row, z: Row | RowLeq(x, y) && RowLeq(y, z) ensures RowLeq(x, z) {
      KeyLeqTransitive(RowKey(x), RowKey(y), RowKey(z));
    }
  }
}

=== FILE: usage_index.dfy ===
/**
 * The full LTI usage page: every scanned LTI activity is put in the group of
 * its tool type, each group is sorted by (course, name), and a group of more
 * than 25 rows shows only the requested page of them.
 *
 * The course scan, format_string, the tool type lookup, the page's own URL
 * and the request parameters are collaborators and are given as parameters.
 */
module UsageIndex {
  import opened Wrappers
  import opened Sorting
  import opened Paging
  import opened Usage
  import opened Collation

  /** One LTI course module found by the scan; typeid is None where the lti record holds NULL. */
  datatype ScannedRecord = ScannedRecord(
    coursename: string,
    cmid: int,
    activityname: Option<string>,
    typeid: Option<int>,
    visible: int)

  /** How the page renders a row: the delete permission, the URL builders and format_string. */
  datatype Render = Render(canDelete: bool, links: Links, format: string -> string)

  /** The group key of a record: its typeid, 0 when it has none. */
  function TypeOf(r: ScannedRecord): int {
    r.typeid.GetOr(0)
  }

  /**
   * One table row: formatted course and activity names (an activity without
   * a name shows as empty), and a delete link and flag exactly when the
   * viewer may delete.
   */
  function FormatRow(r: ScannedRecord, render: Render): (row: Row)
    ensures RowKey(row) == SortKey(render.format(r.coursename), render.format(r.activityname.GetOr("")))
    ensures row.cmid == r.cmid && row.visible == r.visible && row.link == render.links.view(r.cmid)
    ensures row.showDelete == render.canDelete
    ensures row.deletelink == if render.canDelete then render.links.delete(r.cmid) else ""
  {
    Row(render.format(r.coursename), render.format(r.activityname.GetOr("")), r.visible,
        render.links.view(r.cmid),
        if render.canDelete then render.links.delete(r.cmid) else "",
        render.canDelete, r.cmid)
  }

  /** The typeids of s, each once, in order of first appearance. */
  function TypeOrder(s: seq<ScannedRecord>): (order: seq<int>)
    ensures |order| <= |s|
    ensures s != [] ==> order != [] && order[0] == TypeOf(s[0])
  {
    if s == [] then []
    else
      var order := TypeOrder(s[..|s| - 1]);
      var t := TypeOf(s[|s| - 1]);
      if t in order then order else order + [t]
  }

  /** The formatted rows of the records of type t, in scan order. */
  function GroupRows(s: seq<ScannedRecord>, t: int, render: Render): (rows: seq<Row>)
    ensures |rows| <= |s|
    ensures FollowsPermission(rows, render.canDelete)
  {
    if s == [] then []
    else GroupRows(s[..|s| - 1], t, render) + (if TypeOf(s[|s| - 1]) == t then [FormatRow(s[|s| - 1], render)] else [])
  }

  ghost predicate Distinct(order: seq<int>) {
    forall i, j | 0 <= i < j < |order| :: order[i] != order[j]
  }

  /** The PHP array $grouped: its keys in insertion order and the rows under each key. */
  datatype Grouping = Grouping(order: seq<int>, rows: map<int, seq<Row>>) {
    ghost predicate Valid() {
      Distinct(order) && forall t :: t in rows <==> t in order
    }
  }

  /** A type appears in the order exactly when some record has it. */
  lemma {:induction false} TypeOrderMembers(s: seq<ScannedRecord>, t: int)
    ensures t in TypeOrder(s) <==> exists i | 0 <= i < |s| :: TypeOf(s[i]) == t
  {
    if s != [] {
      var init := s[..|s| - 1];
      TypeOrderMembers(init, t);
      if exists i | 0 <= i < |init| :: TypeOf(init[i]) == t {
        var i :| 0 <= i < |init| && TypeOf(init[i]) == t;
        assert TypeOf(s[i]) == t;
      }
      if exists i | 0 <= i < |s| :: TypeOf(s[i]) == t {
        var i :| 0 <= i < |s| && TypeOf(s[i]) == t;
        if i < |init| {
          assert TypeOf(init[i]) == t;
        }
      }
    }
  }

  /** No typeid is listed twice. */
  lemma {:induction false} TypeOrderDistinct(s: seq<ScannedRecord>)
    ensures Distinct(TypeOrder(s))
  {
    if s != [] {
      TypeOrderDistinct(s[..|s| - 1]);
    }
  }

  /** A type that no record has gets no rows. */
  lemma {:induction false} AbsentTypeHasNoRows(s: seq<ScannedRecord>, t: int, render: Render)
    requires t !in TypeOrder(s)
    ensures GroupRows(s, t, render) == []
  {
    if s != [] {
      AbsentTypeHasNoRows(s[..|s| - 1], t, render);
    }
  }

  /** The sum of the group sizes for the types in order. */
  function SumSizes(order: seq<int>, s: seq<ScannedRecord>, render: Render): nat {
    if order == [] then 0
    else SumSizes(order[..|order| - 1], s, render) + |GroupRows(s, order[|order| - 1], render)|
  }

  lemma {:induction false} SumSizesAppendRecord(order: seq<int>, s: seq<ScannedRecord>, render: Render)
    requires s != [] && Distinct(order)
    ensures SumSizes(order, s, render)
         == SumSizes(order, s[..|s| - 1], render) + (if TypeOf(s[|s| - 1]) in order then 1 else 0)
  {
    if order != [] {
      var init := order[..|order| - 1];
      SumSizesAppendRecord(init, s, render);
      assert TypeOf(s[|s| - 1]) in order <==> TypeOf(s[|s| - 1]) in init || TypeOf(s[|s| - 1]) == order[|order| - 1];
    }
  }

  /** Every scanned record is counted in exactly one group: the group sizes add up to the scan. */
  lemma {:induction false} GroupSizesAddUp(s: seq<ScannedRecord>, render: Render)
    ensures SumSizes(TypeOrder(s), s, render) == |s|
  {
    if s != [] {
      var init, x := s[..|s| - 1], s[|s| - 1];
      var order := TypeOrder(init);
      GroupSizesAddUp(init, render);
      TypeOrderDistinct(init);
      TypeOrderDistinct(s);
      if TypeOf(x) in order {
        SumSizesAppendRecord(order, s, render);
      } else {
        SumSizesAppendRecord(order, s, render);
        AbsentTypeHasNoRows(init, TypeOf(x), render);
        assert (order + [TypeOf(x)])[..|order|] == order;
      }
    }
  }

  /**
   * The grouping loop: walks the scan once, adding a key the first time a
   * typeid is seen and appending each formatted row under its key.
   */
  method GroupByType(scanned: seq<ScannedRecord>, render: Render) returns (grouped: Grouping)
    ensures grouped.Valid()
    ensures grouped.order == TypeOrder(scanned)
    ensures forall t | t in grouped.rows :: grouped.rows[t] == GroupRows(scanned, t, render)
  {
    var order: seq<int> := [];
    var rows: map<int, seq<Row>> := map[];
    for i := 0 to |scanned|
      invariant order == TypeOrder(scanned[..i])
      invariant forall t :: t in rows <==> t in order
      invariant forall t | t in rows :: rows[t] == GroupRows(scanned[..i], t, render)
    {
      var r := scanned[i];
      var typeid := r.typeid.GetOr(0);
      assert scanned[..i + 1][..i] == scanned[..i];
      if typeid !in rows {
        AbsentTypeHasNoRows(scanned[..i], typeid, render);
        rows := rows[typeid := []];
        order := order + [typeid];
      }
      rows := rows[typeid := rows[typeid] + [FormatRow(r, render)]];
    }
    assert scanned[..|scanned|] == scanned;
    TypeOrderDistinct(scanned);
    grouped := Grouping(order, rows);
  }

  /** The fields the page template receives for one group. */
  datatype TypeGroup = TypeGroup(
    typeid: int,
    typename: string,
    count: nat,
    rows: seq<Row>,
    paginated: bool,
    page: int,
    perpage: nat,
    total: nat,
    totalpages: nat,
    currentpage: int,
    prev: Option<int>,
    next: Option<int>,
    lastpage: int,
    pageurl: string,
    canDelete: bool)

  const PerPage: nat := 25

  /** The URL the pager links start from: the page's URL with "ajax=1&" added as a parameter. */
  function AjaxUrl(pageUrl: string): (url: string)
    ensures |url| == |pageUrl| + 8
    ensures url[..|pageUrl|] == pageUrl
    ensures url[|pageUrl|] == (if '?' in pageUrl then '&' else '?')
    ensures url[|pageUrl| + 1..] == "ajax=1&"
  {
    pageUrl + (if '?' in pageUrl then "&" else "?") + "ajax=1&"
  }

  /** The group name: the formatted tool type name, or the manual-group name. */
  function TypeName(typeid: int, types: map<int, string>, format: string -> string): (name: string)
    ensures typeid > 0 && typeid in types ==> name == format(types[typeid])
    ensures typeid <= 0 || typeid !in types ==> name == ManualTypeName
  {
    if typeid > 0 && typeid in types then format(types[typeid]) else ManualTypeName
  }

  /** The page requested for a group through its parameter page_<typeid>, 0 when absent. */
  function PageParam(params: map<int, int>, typeid: int): (page: int)
    ensures typeid in params ==> page == params[typeid]
    ensures typeid !in params ==> page == 0
  {
    if typeid in params then params[typeid] else 0
  }

  /** One group's view of its sorted rows, for the requested page. */
  function GroupView(
    typeid: int, typename: string, sorted: seq<Row>, page: int, pageUrl: string, canDelete: bool): (g: TypeGroup)
    ensures g.typeid == typeid && g.typename == typename && g.page == page && g.canDelete == canDelete
    ensures g.count == g.total == |sorted| && g.perpage == PerPage
    ensures g.paginated <==> |sorted| > PerPage
    ensures !g.paginated ==> && g.rows == sorted && g.totalpages == 1 && g.currentpage == 1
                             && g.prev == None && g.next == None && g.lastpage == 0 && g.pageurl == ""
    ensures g.paginated ==> && g.rows == ArraySlice(sorted, page * PerPage, PerPage)
                            && (g.totalpages - 1) * PerPage < g.total <= g.totalpages * PerPage
                            && g.totalpages >= 2
                            && g.lastpage == g.totalpages - 1
                            && g.currentpage == page + 1
                            && g.pageurl == AjaxUrl(pageUrl)
    ensures g.paginated ==> (g.prev.Some? <==> page > 0) && (g.prev.Some? ==> g.prev.value == page - 1)
    ensures g.paginated ==> (g.next.Some? <==> (page + 1) * PerPage < g.total)
                            && (g.next.Some? ==> g.next.value == page + 1)
  {
    var total := |sorted|;
    if total > PerPage then
      var totalpages := CeilDiv(total, PerPage);
      NextPageStarts(total, PerPage, page + 1);
      TypeGroup(typeid, typename, total, ArraySlice(sorted, page * PerPage, PerPage), true, page, PerPage,
                total, totalpages, page + 1,
                if page > 0 then Some(page - 1) else None,
                if page + 1 < totalpages then Some(page + 1) else None,
                totalpages - 1, AjaxUrl(pageUrl), canDelete)
    else
      TypeGroup(typeid, typename, total, sorted, false, page, PerPage,
                total, 1, 1, None, None, 0, "", canDelete)
  }

  /** usort on one group's rows. */
  method SortRows(rows: seq<Row>) returns (sorted: seq<Row>)
    ensures sorted == SortBy(rows, RowLeq)
  {
    var a := new Row[|rows|](k requires 0 <= k < |rows| => rows[k]);
    assert a[..] == rows;
    SortInPlace(a, RowLeq);
    sorted := a[..];
  }

  /** One pass of the sort-and-paginate loop: sorts a group's rows and builds its view. */
  method ViewGroup(
    typeid: int, rows: seq<Row>, params: map<int, int>, types: map<int, string>,
    pageUrl: string, render: Render) returns (group: TypeGroup)
    ensures group == GroupView(typeid, TypeName(typeid, types, render.format), SortBy(rows, RowLeq),
                               PageParam(params, typeid), pageUrl, render.canDelete)
  {
    var sorted := SortRows(rows);

    var typename := ManualTypeName;
    if typeid > 0 && typeid in types {
      typename := render.format(types[typeid]);
    }

    var total := |sorted|;
    var page := if typeid in params then params[typeid] else 0;
    assert typename == TypeName(typeid, types, render.format) && page == PageParam(params, typeid);
    ghost var view := GroupView(typeid, typename, sorted, page, pageUrl, render.canDelete);
    if total > PerPage {
      var totalpages := CeilDiv(total, PerPage);
      var prev := if page > 0 then Some(page - 1) else None;
      var next := if page + 1 < totalpages then Some(page + 1) else None;
      group := TypeGroup(typeid, typename, total, ArraySlice(sorted, page * PerPage, PerPage), true, page,
                         PerPage, total, totalpages, page + 1, prev, next, totalpages - 1,
                         AjaxUrl(pageUrl), render.canDelete);
      assert group == view;
    } else {
      group := TypeGroup(typeid, typename, total, sorted, false, page, PerPage, total, 1, 1, None, None, 0,
                         "", render.canDelete);
      assert group == view;
    }
  }

  /** The view of the group under key t of $grouped. */
  function ViewOf(grouped: Grouping, t: int, params: map<int, int>, types: map<int, string>,
                  pageUrl: string, render: Render): TypeGroup
    requires t in grouped.rows
  {
    GroupView(t, TypeName(t, types, render.format), SortBy(grouped.rows[t], RowLeq),
              PageParam(params, t), pageUrl, render.canDelete)
  }

  /** The sort-and-paginate loop: one view per key of $grouped, in key order. */
  method BuildTypeGroups(
    grouped: Grouping, params: map<int, int>, types: map<int, string>,
    pageUrl: string, render: Render) returns (typegroups: seq<TypeGroup>)
    requires grouped.Valid()
    ensures |typegroups| == |grouped.order|
    ensures forall i | 0 <= i < |typegroups| ::
      typegroups[i] == ViewOf(grouped, grouped.order[i], params, types, pageUrl, render)
  {
    typegroups := [];
    for i := 0 to |grouped.order|
      invariant |typegroups| == i
      invariant forall k | 0 <= k < i :: typegroups[k] == ViewOf(grouped, grouped.order[k], params, types, pageUrl, render)
    {
      var typeid := grouped.order[i];
      var group := ViewGroup(typeid, grouped.rows[typeid], params, types, pageUrl, render);
      typegroups := typegroups + [group];
    }
  }

  function SumCounts(groups: seq<TypeGroup>): nat {
    if groups == [] then 0 else SumCounts(groups[..|groups| - 1]) + groups[|groups| - 1].count
  }

  /** Sums of matching sizes agree. */
  lemma {:induction false} SumCountsIsSumSizes(
    groups: seq<TypeGroup>, order: seq<int>, s: seq<ScannedRecord>, render: Render)
    requires |groups| == |order|
    requires forall i | 0 <= i < |order| :: groups[i].count == |GroupRows(s, order[i], render)|
    ensures SumCounts(groups) == SumSizes(order, s, render)
  {
    if groups != [] {
      var m := |groups| - 1;
      SumCountsIsSumSizes(groups[..m], order[..m], s, render);
    }
  }

  lemma EveryTypeHasAGroup(scanned: seq<ScannedRecord>, typegroups: seq<TypeGroup>)
    requires |typegroups| == |TypeOrder(scanned)|
    requires forall i | 0 <= i < |typegroups| :: typegroups[i].typeid == TypeOrder(scanned)[i]
    ensures forall i | 0 <= i < |scanned| :: exists j | 0 <= j < |typegroups| :: typegroups[j].typeid == TypeOf(scanned[i])
  {
    forall i | 0 <= i < |scanned| ensures exists j | 0 <= j < |typegroups| :: typegroups[j].typeid == TypeOf(scanned[i]) {
      TypeOrderMembers(scanned, TypeOf(scanned[i]));
      var j :| 0 <= j < |TypeOrder(scanned)| && TypeOrder(scanned)[j] == TypeOf(scanned[i]);
      assert typegroups[j].typeid == TypeOf(scanned[i]);
    }
  }

  lemma CountsAddUp(scanned: seq<ScannedRecord>, typegroups: seq<TypeGroup>, render: Render)
    requires |typegroups| == |TypeOrder(scanned)|
    requires forall i | 0 <= i < |typegroups| ::
      typegroups[i].count == |SortBy(GroupRows(scanned, TypeOrder(scanned)[i], render), RowLeq)|
    ensures SumCounts(typegroups) == |scanned|
  {
    var order := TypeOrder(scanned);
    forall i | 0 <= i < |order| ensures typegroups[i].count == |GroupRows(scanned, order[i], render)| {
      SortByPermutes(GroupRows(scanned, order[i], render), RowLeq);
    }
    SumCountsIsSumSizes(typegroups, order, scanned, render);
    GroupSizesAddUp(scanned, render);
  }

  /** Reordering rows keeps each row's delete flag and link as they were. */
  lemma PermutationFollowsPermission(rows: seq<Row>, reordered: seq<Row>, canDelete: bool)
    requires multiset(reordered) == multiset(rows)
    requires FollowsPermission(rows, canDelete)
    ensures FollowsPermission(reordered, canDelete)
  {
    forall k | 0 <= k < |reordered|
      ensures reordered[k].showDelete == canDelete && (!canDelete ==> reordered[k].deletelink == "")
    {
      assert reordered[k] in multiset(rows);
    }
  }

  /** A group shows only rows it was given, so it keeps their delete flags and links. */
  lemma ViewFollowsPermission(
    typeid: int, typename: string, sorted: seq<Row>, page: int, pageUrl: string, canDelete: bool)
    requires FollowsPermission(sorted, canDelete)
    ensures FollowsPermission(GroupView(typeid, typename, sorted, page, pageUrl, canDelete).rows, canDelete)
  {
  }

  /** A group shows its rows in order whenever it was given them in order. */
  lemma ViewRowsSorted(typeid: int, typename: string, sorted: seq<Row>, page: int, pageUrl: string, canDelete: bool)
    requires SortedBy(sorted, RowLeq)
    ensures SortedBy(GroupView(typeid, typename, sorted, page, pageUrl, canDelete).rows, RowLeq)
  {
  }

  /** What the views of a scan have in common, whatever the page parameters. */
  lemma ViewFacts(scanned: seq<ScannedRecord>, params: map<int, int>, types: map<int, string>,
                  pageUrl: string, render: Render, typegroups: seq<TypeGroup>)
    requires |typegroups| == |TypeOrder(scanned)|
    requires forall i | 0 <= i < |typegroups| ::
      var t := TypeOrder(scanned)[i];
      typegroups[i] == GroupView(t, TypeName(t, types, render.format), SortBy(GroupRows(scanned, t, render), RowLeq),
                                 PageParam(params, t), pageUrl, render.canDelete)
    ensures forall i, j | 0 <= i < j < |typegroups| :: typegroups[i].typeid != typegroups[j].typeid
    ensures forall i | 0 <= i < |scanned| :: exists j | 0 <= j < |typegroups| :: typegroups[j].typeid == TypeOf(scanned[i])
    ensures SumCounts(typegroups) == |scanned|
    ensures forall i | 0 <= i < |typegroups| :: SortedBy(typegroups[i].rows, RowLeq)
    ensures forall i | 0 <= i < |typegroups| :: FollowsPermission(typegroups[i].rows, render.canDelete)
  {
    var order := TypeOrder(scanned);
    TypeOrderDistinct(scanned);
    EveryTypeHasAGroup(scanned, typegroups);
    CountsAddUp(scanned, typegroups, render);
    RowOrderIsTotalPreorder();
    forall i | 0 <= i < |typegroups| ensures SortedBy(typegroups[i].rows, RowLeq) {
      var t := order[i];
      SortByIsSorted(GroupRows(scanned, t, render), RowLeq);
      ViewRowsSorted(t, TypeName(t, types, render.format), SortBy(GroupRows(scanned, t, render), RowLeq),
                     PageParam(params, t), pageUrl, render.canDelete);
    }
    forall i | 0 <= i < |typegroups| ensures FollowsPermission(typegroups[i].rows, render.canDelete) {
      var t := order[i];
      var rows := GroupRows(scanned, t, render);
      SortByPermutes(rows, RowLeq);
      PermutationFollowsPermission(rows, SortBy(rows, RowLeq), render.canDelete);
      ViewFollowsPermission(t, TypeName(t, types, render.format), SortBy(rows, RowLeq),
                            PageParam(params, t), pageUrl, render.canDelete);
    }
  }

  /**
   * The page body: groups the scan by type and builds every group's view.
   * Each typeid gets one group, the counts add up to the number of scanned
   * records, each group's rows are in (course, name) order, and every row
   * carries the viewer's delete permission, with no delete link without it.
   */
  method BuildPage(
    scanned: seq<ScannedRecord>, params: map<int, int>, types: map<int, string>,
    pageUrl: string, render: Render) returns (typegroups: seq<TypeGroup>)
    ensures |typegroups| == |TypeOrder(scanned)|
    ensures forall i | 0 <= i < |typegroups| ::
      var t := TypeOrder(scanned)[i];
      typegroups[i] == GroupView(t, TypeName(t, types, render.format), SortBy(GroupRows(scanned, t, render), RowLeq),
                                 PageParam(params, t), pageUrl, render.canDelete)
    ensures forall i, j | 0 <= i < j < |typegroups| :: typegroups[i].typeid != typegroups[j].typeid
    ensures forall i | 0 <= i < |scanned| :: exists j | 0 <= j < |typegroups| :: typegroups[j].typeid == TypeOf(scanned[i])
    ensures SumCounts(typegroups) == |scanned|
    ensures forall i | 0 <= i < |typegroups| :: SortedBy(typegroups[i].rows, RowLeq)
    ensures forall i | 0 <= i < |typegroups| :: FollowsPermission(typegroups[i].rows, render.canDelete)
  {
    var grouped := GroupByType(scanned, render);
    typegroups := BuildTypeGroups(grouped, params, types, pageUrl, render);
    ViewFacts(scanned, params, types, pageUrl, render, typegroups);
  }
}

=== FILE: wrappers.dfy ===
/** The optional value used for PHP's null and for a regular expression that does not match. */
module Wrappers {

  datatype Option<+T> = None | Some(value: T) {

    /** The value, or `default` when there is none (PHP's `??`). */
    function GetOr(default: T): T {
      match this
      case Some(v) => v
      case None => default
    }
  }
}
